=== FILE: README.md ===
# Unnecessary-type lint rules, modelled in Dafny

This project models the three rule bodies of a Deno lint plugin that finds
redundant TypeScript/JavaScript code and proposes a fix for it:

- `no-unnecessary-type-assertion` flags `e as T`, `<T>e` and `e!` whose
  target the expression already has; it also flags, whatever the target,
  every `(e as T).p` with `T` not `any` and every `(<T>e).p`, unless `e` is
  a variable declared `unknown` (and, for `as`, unless `e` is a member
  access on an untracked object), and `(x as any).p` when `p` is a known
  property of `x`;
- `no-unnecessary-type-conversion` flags `String/Number/Boolean/BigInt(x)`,
  `s.toString()`, `+n`, `~~n`, `!!b`, `"" + s`, `s + ""` and `s += ""` on
  values of the matching kind;
- `no-unnecessary-boolean-literal-compare` flags `x === true`, `x !== true`,
  `x === false` and `x !== false` on a name declared exactly `boolean`.

Each rule's `create(context)` factory becomes a module with:

- an explicit state: the registry map, the kind map, or the tracked-name set;
- one pure step function per registered callback, mapping (state, node) to a
  new state and an optional report;
- a `Visit` dispatcher and a `Run` over a sequence of visited nodes.

Nodes, type annotations, reports and fixes are closed datatypes (`Ast`). The
host passes `node.parent` as an optional `Parent` view. Its role field records
the two identity tests the rules make: `parent.object === node` and
`parent.callee === node`. Fix text is symbolic: the source text of a node,
that text behind `!`, or a fixed string. `Ast.Render` turns it into a string
given the host's `getText`.

Each rule's verdicts are proved against a reference semantics:

- `JsTypes.TypesOf` over-approximates the runtime types (`typeof` classes,
  with `null` separate) an expression can evaluate to. Against it:
  - every "definitely K" or "numeric" verdict is sound;
  - the `isDefinitelyNonNull` verdict on a non-identifier operand whose
    binary operators are the language's excludes `null` and `undefined`; the
    verdict on an identifier does not, since `x!` is also reported for a
    variable declared `null`, `unknown` or an alias of a union with `null`
    (`NullableTestMissesNullishTypes`);
  - with the corrected `.toString()` check (see "## Findings"), every
    conversion fix keeps the replaced expression's possible types.
- The boolean rule's rewrites are evaluated on boolean values. Each has the
  value of the comparison it replaces.
- The `~~` rewrite keeps the type but not always the value. `~~v` equals `v`
  exactly when `v` is a 32-bit signed integer, so `~~1.5` is `1`.

The conversion rule's `isDefinitelyNumber` does not look through unary `+` or
`-`, whereas the type-assertion rule's `isNumericExpression` does.

The conversion rule's `.toString()` check is modelled as the code has it
(`CheckMemberAsWritten`, dispatched by `Visit` and so by `Run`), and with one
correction recorded under "Findings": bracket access `s[toString]()` is not
reported (`CheckMember`, dispatched by `VisitCorrected`). The type
preservation of fixes is proved of the corrected rule.

## Model

| member | source | states |
|---|---|---|
| `Ast.NamesOf` | src/rules/no-unnecessary-type-assertion.ts:59-73 | a name is collected iff some member of an allowed kind has it as identifier key |
| `Ast.ObjectKeys` | src/rules/no-unnecessary-type-assertion.ts:30-38 | a key is collected iff some `Property` entry of the object literal has it as identifier key |
| `TypeNames.CastTypeName` | src/rules/no-unnecessary-type-assertion.ts:340-395 | with parser-produced names, every rendered name is non-empty and free of line terminators |
| `TypeNames.GenericCapture` | src/rules/no-unnecessary-type-assertion.ts:574 | a capture `c` of `/^Array<(.+)>$/` is plain and the input is exactly `Array<c>` |
| `TypeNames.BracketCapture` | src/rules/no-unnecessary-type-assertion.ts:575 | a capture `c` of `/^(.+)\[\]$/` is plain and the input is exactly `c[]` |
| `TypeNames.CaptureRoundTrip` | src/rules/no-unnecessary-type-assertion.ts:573-586 | each pattern recovers the element name from its own spelling and rejects the other spelling |
| `TypeNames.EquivalenceIsEquivalence` | src/rules/no-unnecessary-type-assertion.ts:569-589 | `typesAreEquivalent` is reflexive, symmetric and transitive |
| `TypeNames.ArraySpellingsEquivalent` | src/rules/no-unnecessary-type-assertion.ts:569-589 | `Array<x>` vs `y[]`, in either argument order, are equivalent iff `x == y` |
| `TypeNames.ArrayAnnotationsEquivalent` | src/rules/no-unnecessary-type-assertion.ts:340-392 | `Array<X>` renders as `Array<name(X)>` and `Y[]` as `name(Y)[]`; these are equivalent iff `X` and `Y` render alike |
| `TypeNames.UnrenderableElementPropagates` | src/rules/no-unnecessary-type-assertion.ts:340-392 | an element rendering to nothing (or to `""`) makes both array spellings render to nothing |
| `TypeNames.UnrecognisedKindsRenderNothing` | src/rules/no-unnecessary-type-assertion.ts:340-395 | unions, optionals, type literals, qualified references, `bigint` and the annotation wrapper render to nothing |
| `TypeNames.DifferentElementsNotEquivalent` | src/rules/no-unnecessary-type-assertion.ts:569-589 | `Array<number>` is not equivalent to `string[]` |
| `TypeAssertion.DeclareAlias` | src/rules/no-unnecessary-type-assertion.ts:9-17 | afterwards a reference to the alias, with any type arguments, resolves to the aliased type, and the entry has no properties or class; no other entry changes; a non-identifier id changes nothing |
| `TypeAssertion.DeclareVariable` | src/rules/no-unnecessary-type-assertion.ts:20-51 | the entry keeps the annotation and the `new C()` class; its properties are exactly the type-literal signatures plus the object-literal keys; no other entry changes |
| `TypeAssertion.DeclareInterface` | src/rules/no-unnecessary-type-assertion.ts:54-82 | the entry's properties are exactly the identifier-keyed property and method signatures; no other entry changes |
| `TypeAssertion.DeclareClass` | src/rules/no-unnecessary-type-assertion.ts:85-113 | the entry's properties are exactly the identifier-keyed property and method definitions; no other entry changes |
| `TypeAssertion.SameTypeReport` | src/rules/no-unnecessary-type-assertion.ts:207-231 | a variable cast to the very type it was declared with is reported whenever that type has a name; the report names the declared type and the fix is the bare variable name (stated at check level by `CastToDeclaredTypeReported`) |
| `TypeAssertion.CheckAs` | src/rules/no-unnecessary-type-assertion.ts:116-232 | any report is about the cast and replaces it with the operand's text or the bare variable name; when each branch fires, and with which message, is stated by `AnyCastGate`, `UntrackedMemberOperandNotReported`, `AccessedCastReported` and `AsOutsideMemberAccess` |
| `TypeAssertion.CheckTypeAssertion` | src/rules/no-unnecessary-type-assertion.ts:235-303 | any report is about the assertion and replaces it with the operand's text or the bare variable name; when each branch fires is stated by `AccessedTypeAssertionReported` and `TypeAssertionOutsideMemberAccess` |
| `TypeAssertion.CheckNonNull` | src/rules/no-unnecessary-type-assertion.ts:306-337 | any report is about the `!` and replaces it with the operand's text or the bare variable name; when it fires is stated by `NonNullReportedIff` |
| `TypeAssertion.Visit` | src/rules/no-unnecessary-type-assertion.ts:7-338 | at most one report, only for assertion nodes; only the four declaration kinds change the registry, and names are never removed |
| `TypeAssertionProperties.ActualTypeNameByEntry` | src/rules/no-unnecessary-type-assertion.ts:397-408 | a class's or interface's own name, a variable's rendered annotation (plain when its names are), nothing for an alias or an unannotated variable |
| `TypeAssertionProperties.HasPropertyByEntry` | src/rules/no-unnecessary-type-assertion.ts:410-428 | an alias has no properties; an interface, and a class registered under its own name, have exactly their declared ones; a variable has its own plus those of the entry its `new C()` names |
| `TypeAssertionProperties.NumericExpressionIsNumber` | src/rules/no-unnecessary-type-assertion.ts:497-515 | a numeric expression evaluates to a number and nothing else |
| `TypeAssertionProperties.NumericExpressionShape` | src/rules/no-unnecessary-type-assertion.ts:497-515 | identifiers and non-arithmetic operators are never numeric; an arithmetic binary is numeric iff both operands are |
| `TypeAssertionProperties.UnnecessaryAssertionSound` | src/rules/no-unnecessary-type-assertion.ts:448-495 | a flagged primitive assertion targets, after one alias hop, the primitive the expression evaluates to |
| `TypeAssertionProperties.AliasOfPrimitiveResolves` | src/rules/no-unnecessary-type-assertion.ts:449-470 | a reference to an alias of `number` is flagged iff the expression is numeric |
| `TypeAssertionProperties.AliasResolutionIsOneHop` | src/rules/no-unnecessary-type-assertion.ts:449-460 | an alias of a non-primitive reference is never flagged, even if that reference is itself an alias |
| `TypeAssertionProperties.IdentifierNeverPrimitiveRedundant` | src/rules/no-unnecessary-type-assertion.ts:462-494 | the primitive test never flags an identifier operand |
| `TypeAssertionProperties.NonNullCharacterization` | src/rules/no-unnecessary-type-assertion.ts:517-546 | `isDefinitelyNonNull` holds exactly for non-null literals, array/object/`new`, non-`??` binaries and signed numeric expressions |
| `TypeAssertionProperties.NonNullSound` | src/rules/no-unnecessary-type-assertion.ts:517-546 | a definitely-non-null expression never evaluates to `null` or `undefined` |
| `TypeAssertionProperties.AnyCastGate` | src/rules/no-unnecessary-type-assertion.ts:150-177 | an `any` cast is reported iff it is accessed via an identifier property in its tracked entry's properties or its class's; the fix is the bare name |
| `TypeAssertionProperties.UntrackedMemberOperandNotReported` | src/rules/no-unnecessary-type-assertion.ts:121-131 | a non-`any` cast of a member expression whose object is untracked or not an identifier is never reported |
| `TypeAssertionProperties.ComputedAnyAccessUsesName` | src/rules/no-unnecessary-type-assertion.ts:150-172 | `(x as any)[p]` is reported exactly like `(x as any).p`: the gate reads the property's name, not its value |
| `TypeAssertionProperties.AccessedCastReported` | src/rules/no-unnecessary-type-assertion.ts:121-205 | a non-`any` cast used as a member-access object is reported iff, for a member operand, its object is a tracked identifier, and otherwise iff the operand is not an identifier tracked as `unknown`; the message is "unnecessary" when the primitive test also flags the cast, since that test runs first, and "when accessing a property" otherwise |
| `TypeAssertionProperties.AsOutsideMemberAccess` | src/rules/no-unnecessary-type-assertion.ts:133-231 | outside member access a non-`any` cast is reported as unnecessary iff the primitive test flags it, and otherwise exactly as the same-type test decides |
| `TypeAssertionProperties.CastToDeclaredTypeReported` | src/rules/no-unnecessary-type-assertion.ts:207-231 | `x as T` and `<T>x` for a variable declared `T` are reported, naming `T`, when `T` has a name and the cast is not a member-access object |
| `TypeAssertionProperties.PrimitiveAssertionsReported` | src/rules/no-unnecessary-type-assertion.ts:133-147 | `"hello" as string` and `<number>(1 + 2)` are reported and rewritten to their operand |
| `TypeAssertionProperties.ArrayDeclarationsMatchEitherSpelling` | src/rules/no-unnecessary-type-assertion.ts:207-231 | a variable declared in one array spelling and cast to the other is reported iff the element types render alike |
| `TypeAssertionProperties.AccessedTypeAssertionReported` | src/rules/no-unnecessary-type-assertion.ts:237-262 | a `<T>e` used as a member-access object is reported, whatever `T` is, iff `e` is not tracked as `unknown` |
| `TypeAssertionProperties.TypeAssertionOutsideMemberAccess` | src/rules/no-unnecessary-type-assertion.ts:264-302 | outside member access `<T>e` is reported as unnecessary iff the primitive test flags it, and otherwise exactly as the same-type test decides, for every `T` |
| `TypeAssertionProperties.FormsAgreeOutsideMemberAccess` | src/rules/no-unnecessary-type-assertion.ts:235-303 | outside member access, for non-`any` targets and non-member operands, `as` and `<T>` give the same verdict, message and fix |
| `TypeAssertionProperties.NonNullOnIdentifier` | src/rules/no-unnecessary-type-assertion.ts:320-336 | `x!` is reported iff `x` is tracked and is either a variable with a non-nullable annotation or a class, interface or alias entry |
| `TypeAssertionProperties.NonNullReportedIff` | src/rules/no-unnecessary-type-assertion.ts:306-337 | `e!` is reported iff `e` is definitely non-null or a tracked identifier not declared nullable; a non-identifier's fix is its text |
| `TypeAssertionProperties.NullableTypeShapes` | src/rules/no-unnecessary-type-assertion.ts:548-567 | only a wrapped union with a `null` or `undefined` member, or a wrapped optional type, is nullable |
| `TypeAssertionProperties.NullableAdmitsNullish` | src/rules/no-unnecessary-type-assertion.ts:548-567 | an annotation counted as nullable admits `null` or `undefined` at run time |
| `TypeAssertionProperties.NullableTestMissesNullishTypes` | src/rules/no-unnecessary-type-assertion.ts:320-336 | `let x: null`, `let x: unknown` and an alias of a union of `string` and `null` admit `null`, yet `x!` is reported for each |
| `TypeAssertionProperties.NonNullReportSound` | src/rules/no-unnecessary-type-assertion.ts:306-318 | a reported `e!` on a non-identifier has an operand that cannot be nullish, and removing `!` keeps its types |
| `TypeAssertionProperties.RunKeepsNames` | src/rules/no-unnecessary-type-assertion.ts:9-113 | registry names are never removed over a traversal |
| `TypeAssertionProperties.RunReportsAssertions` | src/rules/no-unnecessary-type-assertion.ts:116-337 | every report of a traversal is about a visited assertion node and replaces exactly that node |
| `TypeAssertionProperties.LastWriteWins` | src/rules/no-unnecessary-type-assertion.ts:106-111 | a class declared after any other declaration of its name owns the entry |
| `TypeConversion.KindsExclusive` | src/rules/no-unnecessary-type-conversion.ts:7-71 | no expression is definitely of two kinds |
| `TypeConversion.DeclareVariable` | src/rules/no-unnecessary-type-conversion.ts:80-92 | an identifier initialised with a definitely-K value is recorded as K; otherwise the map is unchanged |
| `TypeConversion.CheckCall` | src/rules/no-unnecessary-type-conversion.ts:95-149 | a report has exactly one argument and replaces the call with that argument's text |
| `TypeConversion.CheckMemberAsWritten` | src/rules/no-unnecessary-type-conversion.ts:152-173 | a report needs a `toString` property that is the callee of a zero-argument call and a definitely-string object, and replaces the call with the object; every such call is reported, bracket access included |
| `TypeConversion.CheckMember` | src/rules/no-unnecessary-type-conversion.ts:152-173 | as `CheckMemberAsWritten`, but only for dot access (see Findings) |
| `TypeConversion.CheckUnary` | src/rules/no-unnecessary-type-conversion.ts:176-221 | only `+`, `~`, `!` can report; a report is `+s` or `~~s` with `s` definitely a number, or `!!s` with `s` definitely a boolean, and the fix keeps the innermost operand `s` |
| `TypeConversion.CheckBinary` | src/rules/no-unnecessary-type-conversion.ts:224-254 | a report is `"" + s` or `s + ""` with `s` definitely a string, and keeps `s`; conversely each of those is reported |
| `TypeConversion.CheckAssignment` | src/rules/no-unnecessary-type-conversion.ts:257-278 | reported iff `x += ""` with `x` tracked as a string; the fix removes the enclosing expression statement, else keeps `x` |
| `TypeConversion.Visit` | src/rules/no-unnecessary-type-conversion.ts:78-279 | the listeners as written: at most one report; only declarators change the map, and they never report |
| `TypeConversion.VisitCorrected` | src/rules/no-unnecessary-type-conversion.ts:152-173 | the listeners with the corrected `toString` check: the same map update, and either no report or the as-written report; they differ only on bracket access |
| `TypeConversionProperties.NumberSound` | src/rules/no-unnecessary-type-conversion.ts:21-35 | with a truthful kind map, a definitely-number expression evaluates only to numbers |
| `TypeConversionProperties.DefinitelySound` | src/rules/no-unnecessary-type-conversion.ts:7-71 | with a truthful kind map, a definitely-K expression evaluates only to values of type K |
| `TypeConversionProperties.DeclarationKeepsAgreement` | src/rules/no-unnecessary-type-conversion.ts:80-92 | a declaration keeps the kind map truthful unless it redeclares a tracked name with a kind-less initializer |
| `TypeConversionProperties.RedeclarationKeepsStaleKind` | src/rules/no-unnecessary-type-conversion.ts:80-92 | redeclaring a string variable with an unknown initializer keeps `string`, so `String(x)` is still reported |
| `TypeConversionProperties.CallReportedIff` | src/rules/no-unnecessary-type-conversion.ts:95-149 | a call is reported iff it names a conversion function, has one argument, and that argument is definitely of its kind |
| `TypeConversionProperties.LiteralKindCoverage` | src/rules/no-unnecessary-type-conversion.ts:95-149 | a literal passed to a conversion function is reported iff the literal is of that function's kind |
| `TypeConversionProperties.FixPreservesType` | src/rules/no-unnecessary-type-conversion.ts:94-278 | with the corrected `.toString()` check, every replacement has only types the replaced expression can have; any other fix removes the parent expression statement |
| `TypeConversionProperties.DefinitelyExact` | src/rules/no-unnecessary-type-conversion.ts:7-71 | with a truthful kind map and inhabited variables, a definitely-K expression has exactly the type K |
| `TypeConversionProperties.FixKeepsTypesExactly` | src/rules/no-unnecessary-type-conversion.ts:94-278 | with the corrected `.toString()` check and inhabited variables, every replacement has exactly the types of the expression it replaces |
| `TypeConversionProperties.AssignmentRemovalKeepsEnv` | src/rules/no-unnecessary-type-conversion.ts:257-278 | running a reported `x += ""` leaves every variable's types as they were, so removing the statement changes nothing |
| `TypeConversionProperties.ComputedToStringChangesType` | src/rules/no-unnecessary-type-conversion.ts:152-173 | as written, `s[toString]()` is reported and rewritten to `s` although the call may yield any type, so `Visit` reports a rewrite that can change the type; the corrected check and `VisitCorrected` do not report it |
| `TypeConversionProperties.KindPredicateShapes` | src/rules/no-unnecessary-type-conversion.ts:21-71 | no unary is definitely a number; every comparison and `!` is definitely boolean; every `BigInt(...)` is definitely a BigInt |
| `TypeConversionProperties.ToStringReportedIff` | src/rules/no-unnecessary-type-conversion.ts:152-173 | a member expression, for any parent, is reported iff it is `o.toString` by dot access, the callee of a zero-argument call, and `o` is definitely a string |
| `TypeConversionProperties.UnaryReportedIff` | src/rules/no-unnecessary-type-conversion.ts:176-221 | `+a` and `~~a` are reported iff `a` is definitely a number, `!!a` iff `a` is definitely a boolean; a lone `~` or `!` never is |
| `TypeConversionProperties.EmptyConcatPrefersLeftPattern` | src/rules/no-unnecessary-type-conversion.ts:225-252 | `"" + ""` takes the left-empty branch and keeps the right operand |
| `TypeConversionProperties.UnaryPatternsAreExact` | src/rules/no-unnecessary-type-conversion.ts:176-221 | `+(+1)` is not reported at its outer `+`; `!!!true` is reported and keeps `!true` |
| `TypeConversionProperties.RunOnlyDeclaratorsTrack` | src/rules/no-unnecessary-type-conversion.ts:78-279 | a traversal without declarators leaves the map unchanged and reports at most once per node |
| `TypeConversionProperties.RunKeepsKeys` | src/rules/no-unnecessary-type-conversion.ts:80-92 | tracked names are never forgotten over a traversal |
| `TypeConversionProperties.DoubleBitwiseNotExact` | src/rules/no-unnecessary-type-conversion.ts:186-202 | the `~~n` to `n` rewrite keeps the value iff `n` is a signed 32-bit integer |
| `TypeConversionProperties.DoubleBitwiseNotTruncates` | src/rules/no-unnecessary-type-conversion.ts:186-202 | `~~1.5` is `1`, so the rewrite can change a value |
| `BooleanLiteralCompare.StrictlyBooleanIsKeyword` | src/rules/no-unnecessary-boolean-literal-compare.ts:7-27 | an annotation is strictly boolean iff it is `boolean` under any number of wrappers |
| `BooleanLiteralCompare.DeclareVariable` | src/rules/no-unnecessary-boolean-literal-compare.ts:31-38 | at most the declared name is added, exactly when its annotation, unwrapped, is `boolean`; a union, even of `boolean` with itself, adds nothing |
| `BooleanLiteralCompare.DeclareParams` | src/rules/no-unnecessary-boolean-literal-compare.ts:41-62 | a name is added iff some identifier parameter is annotated strictly boolean |
| `BooleanLiteralCompare.SplitComparison` | src/rules/no-unnecessary-boolean-literal-compare.ts:72-86 | found iff an operand is a boolean literal; the literal and the subject are the comparison's two operands, the left literal preferred |
| `BooleanLiteralCompare.CheckBinary` | src/rules/no-unnecessary-boolean-literal-compare.ts:65-133 | only `===`/`!==` report; the fix replaces the comparison with a tracked identifier operand or its negation |
| `BooleanLiteralCompare.Visit` | src/rules/no-unnecessary-boolean-literal-compare.ts:29-134 | at most one report; the tracked set only grows, and only comparisons report |
| `BooleanLiteralCompareProperties.RewritePreservesValue` | src/rules/no-unnecessary-boolean-literal-compare.ts:95-129 | when tracked names hold booleans, the rewrite has the value of the comparison it replaces |
| `BooleanLiteralCompareProperties.SplitIsSymmetric` | src/rules/no-unnecessary-boolean-literal-compare.ts:72-86 | with exactly one literal operand, swapping the operands gives the same split |
| `BooleanLiteralCompareProperties.ComparisonReportedIff` | src/rules/no-unnecessary-boolean-literal-compare.ts:66-129 | reported iff strict and tracked; both operand orders agree; a negation iff the comparison flips the value; the message is the one for its operator and literal (`=== true` uses directly, `!== true` negates, `=== false` negates, `!== false` uses directly) |
| `BooleanLiteralCompareProperties.OtherOperandsNotReported` | src/rules/no-unnecessary-boolean-literal-compare.ts:72-94 | a literal against anything but a tracked identifier is never reported |
| `BooleanLiteralCompareProperties.RunTracksExactly` | src/rules/no-unnecessary-boolean-literal-compare.ts:31-62 | after a traversal, a name is tracked iff it was tracked before or some visited node declares it boolean |
| `BooleanLiteralCompareProperties.RunReportsComparisons` | src/rules/no-unnecessary-boolean-literal-compare.ts:64-133 | every report of a traversal is about a visited `===`/`!==` comparison |
| `BooleanLiteralCompareProperties.DeclarationMustComeFirst` | src/rules/no-unnecessary-boolean-literal-compare.ts:31-133 | a comparison visited before its variable's declaration is not reported; visited after, it is |

## Left out

- Plugin registration and the rule metadata of the factory objects are not part of this model: they carry no logic.
- The host's parser, its traversal order and how it applies fixes are not modelled. `Run` takes the visited nodes, with their parent views, as a sequence.
- `getText` is not a function of the model. Fixes carry symbolic text, and `Ast.Render` gives the string for any `getText` the caller supplies.
- Message strings are reduced to a tag per message, plus the interpolated variable, property and type names.
- Bracket access in the `any` gate: the source never reads `computed`, so `(x as any)[p]` is judged by the name `p`, not its value (`ComputedAnyAccessUsesName`). A cast that is needed, for instance when `p` is a string variable, can therefore be flagged. This is kept as the code has it: unlike the `toString` case, removing an `as` changes no runtime type.
- Scope, shadowing and control flow are not modelled, because the rules do not model them either. Their effect is exhibited by `RedeclarationKeepsStaleKind`.
- Logical expressions (`&&`, `||`, `??`) are `OtherNode` in the model, as they are not binary expressions in the host's tree. A `BinaryExpression` with operator `??` is still handled as the source handles it.
- `JsTypes` assumes that the globals `String`, `Number`, `Boolean` and `BigInt` are the built-ins.
- `TypeConversionProperties.ToInt32` covers finite numbers only; `NaN` and the infinities are left out.
- `TypeConversionProperties.FixPreservesType`: the `Remove` fix of `x += ""` is only shown to target the enclosing expression statement; that the statement has no effect is stated separately, on types only, by `AssignmentRemovalKeepsEnv`, since string values are not modelled.
- `TypeAssertionProperties.NonNullSound`: requires a binary operand's operator to be one of the language's operators, because `JsTypes` gives every type to unknown operators.
- `TypeAssertion.CheckAs`, `TypeAssertion.CheckTypeAssertion`, `TypeAssertion.CheckNonNull`: their own contracts state the report target and the fix shapes; when each branch fires is stated by the lemmas their rows name.
- `TypeAssertionProperties.NullableAdmitsNullish`: only this direction holds. The nullable test does not follow aliases and does not count a bare `null`, `undefined`, `void`, `any` or `unknown` annotation, so `x!` on such a variable is reported although the assertion may be needed (`NullableTestMissesNullishTypes`). The model keeps the code's behaviour.

## Findings

| source | as written | input that shows it | evidently intended | confidence | as-written member | corrected member |
|---|---|---|---|---|---|---|
| src/rules/no-unnecessary-type-conversion.ts:153-158 | the `toString` test never reads `computed`, so bracket access passes | `s[toString]()` with `s` a string and `toString` a variable naming another method: reported and rewritten to `s` | report only the dot access `s.toString()` | not executed | `TypeConversion.CheckMemberAsWritten`; `TypeConversionProperties.ComputedToStringChangesType` | `TypeConversion.CheckMember`; `TypeConversion.VisitCorrected`; `TypeConversionProperties.ToStringReportedIff`; `TypeConversionProperties.FixKeepsTypesExactly` |

=== FILE: ast.dfy ===
/** The closed syntax tree the three rules consume, the parent view the host
    supplies with each visited node, and the report/fix values the rules emit.

    Only the fields the rule bodies read are kept. A node's `parent`
    link is not a field: each callback receives an optional `Parent`
    beside the node instead. */
module Ast {

  datatype Option<+T> = None | Some(value: T)

  /** JavaScript truthiness of an optional string: `null`, `undefined` and the
      empty string are falsy. */
  predicate Truthy(s: Option<string>) {
    s.Some? && s.value != ""
  }

  /** The runtime value of a `Literal` node, by its `typeof` class. */
  datatype LitValue =
    | StrVal(s: string)
    | NumVal
    | BoolVal(b: bool)
    | BigIntVal
    | NullVal
    | RegExpVal

  /** A member of a class body, an interface body or a type literal. `key` is
      `Some(name)` exactly when the member's key is an `Identifier`. */
  datatype MemberKind =
    | PropertySignature
    | MethodSignature
    | PropertyDefinition
    | MethodDefinition
    | OtherMember
  datatype Member = Member(kind: MemberKind, key: Option<string>)

  /** A property of an object literal; `SpreadElement` has no key. */
  datatype ObjectMember = Property(key: Option<string>) | SpreadElement

  /** Type annotation nodes. `TypeAnnotation` is the `TSTypeAnnotation`
      wrapper that a declared identifier carries around its type; a
      `TypeReference` has `typeName == Some(n)` when its name is an
      `Identifier` and `None` when it is qualified (`A.B`); `typeArgs` are its
      type parameters (empty when it has none). */
  datatype TypeNode =
    | TypeAnnotation(inner: TypeNode)
    | StringKeyword
    | NumberKeyword
    | BooleanKeyword
    | BigIntKeyword
    | AnyKeyword
    | UnknownKeyword
    | VoidKeyword
    | NullKeyword
    | UndefinedKeyword
    | TypeReference(typeName: Option<string>, typeArgs: seq<TypeNode>)
    | ArrayType(elementType: TypeNode)
    | UnionType(types: seq<TypeNode>)
    | OptionalType(optional: TypeNode)
    | TypeLiteral(members: seq<Member>)
    | OtherType

  /** A declared name: an `Identifier` (with its optional annotation) or any
      destructuring / default / rest pattern. */
  datatype Binding = BindingIdent(name: string, annotation: Option<TypeNode>) | OtherPattern

  /** Expression, statement and declaration nodes. `MemberExpression(obj,
      property, computed)` is `obj.property` when `computed` is false and
      `obj[property]` when it is true. */
  datatype Node =
    | Identifier(name: string)
    | Literal(value: LitValue)
    | TemplateLiteral
    | ArrayExpression
    | ObjectExpression(properties: seq<ObjectMember>)
    | NewExpression(callee: Node)
    | CallExpression(callee: Node, arguments: seq<Node>)
    | MemberExpression(obj: Node, property: Node, computed: bool)
    | UnaryExpression(operator: string, argument: Node)
    | BinaryExpression(operator: string, left: Node, right: Node)
    | AssignmentExpression(operator: string, left: Node, right: Node)
    | AsExpression(expression: Node, typeAnnotation: TypeNode)
    | TypeAssertion(expression: Node, typeAnnotation: TypeNode)
    | NonNullExpression(expression: Node)
    | ExpressionStatement(expression: Node)
    | VariableDeclarator(id: Binding, init: Option<Node>)
    | TypeAliasDeclaration(aliasId: Node, typeAnnotation: TypeNode)
    | InterfaceDeclaration(interfaceId: Option<Node>, body: seq<Member>)
    | ClassDeclaration(classId: Option<string>, body: seq<Member>)
    | FunctionDeclaration(params: seq<Binding>)
    | ArrowFunctionExpression(params: seq<Binding>)
    | OtherNode

  /** The operators both the type-assertion and the type-conversion rules
      treat as arithmetic. */
  const ArithmeticOperators: seq<string> := ["+", "-", "*", "/", "%", "**"]

  /** Which slot of its parent the visited node occupies: `AsObject` is
      `parent.object === node`, `AsCallee` is `parent.callee === node`. */
  datatype Role = AsObject | AsCallee | AsOther
  datatype Parent = Parent(node: Node, role: Role)

  /** One visit of a traversal: the node and the parent view passed with it. */
  datatype Event = Event(node: Node, parent: Option<Parent>)

  /** The parent view agrees with the tree: a node said to be the object
      (callee) of its parent is that member expression's object (that call's
      callee). */
  predicate ChildOf(child: Node, p: Parent) {
    && (p.role == AsObject ==> p.node.MemberExpression? && p.node.obj == child)
    && (p.role == AsCallee ==> p.node.CallExpression? && p.node.callee == child)
  }

  /** Replacement text of a fix: the host's source text of a node, that text
      behind a `!`, or a fixed string. */
  datatype FixText = SourceText(src: Node) | NegatedSource(src: Node) | Verbatim(text: string)

  /** The two fixer operations the rules use. */
  datatype Fix = ReplaceText(node: Node, text: FixText) | Remove(node: Node)

  /** One diagnostic: the node reported, a rule-specific message, the fix. */
  datatype Report<M> = Report(node: Node, message: M, fix: Fix)

  /** The string a fix inserts, given the host's `getText`. */
  function Render(t: FixText, getText: Node -> string): string {
    match t
    case SourceText(n) => getText(n)
    case NegatedSource(n) => "!" + getText(n)
    case Verbatim(s) => s
  }

  function ToSeq<T>(o: Option<T>): (r: seq<T>)
    ensures |r| <= 1
    ensures o.Some? <==> |r| == 1
    ensures o.Some? ==> r[0] == o.value
  {
    match o
    case None => []
    case Some(v) => [v]
  }

  /** The names of the members whose kind is in `kinds` and whose key is an
      identifier, as the source's `forEach` loops over a body collect them. */
  function NamesOf(members: seq<Member>, kinds: set<MemberKind>): (r: set<string>)
    ensures forall p :: p in r <==>
      exists i :: 0 <= i < |members| && members[i].kind in kinds && members[i].key == Some(p)
  {
    if |members| == 0 then {}
    else
      var rest := NamesOf(members[1..], kinds);
      assert forall i :: 1 <= i < |members| ==> members[i] == members[1..][i - 1];
      if members[0].kind in kinds && members[0].key.Some? then {members[0].key.value} + rest else rest
  }

  /** The identifier keys of an object literal's `Property` entries. */
  function ObjectKeys(props: seq<ObjectMember>): (r: set<string>)
    ensures forall p :: p in r <==>
      exists i :: 0 <= i < |props| && props[i] == Property(Some(p))
  {
    if |props| == 0 then {}
    else
      var rest := ObjectKeys(props[1..]);
      assert forall i :: 1 <= i < |props| ==> props[i] == props[1..][i - 1];
      match props[0]
      case Property(Some(k)) => {k} + rest
      case _ => rest
  }
}

=== FILE: boolean_compare.dfy ===
/** The `no-unnecessary-boolean-literal-compare` rule: the names declared
    with a strictly-`boolean` annotation, and the rewrite of `x === true`,
    `x !== true`, `x === false`, `x !== false` (either operand order) on
    such a name. */
module BooleanLiteralCompare {
  import opened Ast

  /** `variableTypes`: the rule only ever stores `"boolean"`, so the map is
      the set of its keys. */
  type Tracked = set<string>

  datatype Message =
    | TrueUseDirectly
    | TrueUseNegation
    | FalseUseNegation
    | FalseUseDirectly

  /** `isStrictlyBoolean`: through any number of annotation wrappers, the
      `boolean` keyword itself; a union, even `boolean | boolean`, is not. */
  predicate IsStrictlyBoolean(t: TypeNode) {
    match t
    case TypeAnnotation(inner) => IsStrictlyBoolean(inner)
    case BooleanKeyword => true
    case _ => false
  }

  /** The annotation with its `TypeAnnotation` wrappers removed. */
  function StripAnnotation(t: TypeNode): TypeNode {
    match t
    case TypeAnnotation(inner) => StripAnnotation(inner)
    case _ => t
  }

  /** An annotation is strictly boolean exactly when, unwrapped, it is the
      `boolean` keyword; so no union, array, reference or optional type is. */
  lemma {:induction false} StrictlyBooleanIsKeyword(t: TypeNode)
    ensures IsStrictlyBoolean(t) <==> StripAnnotation(t) == BooleanKeyword
  {
    match t
    case TypeAnnotation(inner) => StrictlyBooleanIsKeyword(inner);
    case _ =>
  }

  /** An identifier binding whose annotation is strictly boolean. */
  predicate DeclaresBoolean(b: Binding) {
    b.BindingIdent? && b.annotation.Some? && IsStrictlyBoolean(b.annotation.value)
  }

  /** `VariableDeclarator`: at most the declared name is added, and it is
      added exactly when its annotation, unwrapped, is `boolean`; a union,
      even `boolean | boolean`, adds nothing. */
  function DeclareVariable(tracked: Tracked, node: Node): (r: Tracked)
    requires node.VariableDeclarator?
    ensures tracked <= r
    ensures forall x :: x in r - tracked ==> node.id.BindingIdent? && x == node.id.name
    ensures node.id.BindingIdent? ==>
      (node.id.name in r <==>
         || node.id.name in tracked
         || (node.id.annotation.Some? && StripAnnotation(node.id.annotation.value) == BooleanKeyword))
    ensures node.id.BindingIdent? && node.id.annotation.Some? && StripAnnotation(node.id.annotation.value).UnionType? ==>
      r == tracked
  {
    if node.id.BindingIdent? && node.id.annotation.Some? then
      StrictlyBooleanIsKeyword(node.id.annotation.value);
      if DeclaresBoolean(node.id) then tracked + {node.id.name} else tracked
    else tracked
  }

  /** The `forEach` over a function's or an arrow function's parameters. */
  function DeclareParams(tracked: Tracked, params: seq<Binding>): (r: Tracked)
    ensures forall x :: x in r <==>
      x in tracked || exists i :: 0 <= i < |params| && DeclaresBoolean(params[i]) && params[i].name == x
    decreases |params|
  {
    if |params| == 0 then tracked
    else
      var t1 := if DeclaresBoolean(params[0]) then tracked + {params[0].name} else tracked;
      var r := DeclareParams(t1, params[1..]);
      assert forall i :: 1 <= i < |params| ==> params[i] == params[1..][i - 1];
      r
  }

  predicate IsBooleanLiteral(n: Node) {
    n.Literal? && n.value.BoolVal?
  }

  /** The boolean literal operand (the left one when both are) and the other
      operand: together they are the comparison's two operands. */
  function SplitComparison(node: Node): (r: Option<(bool, Node)>)
    requires node.BinaryExpression?
    ensures r.Some? <==> IsBooleanLiteral(node.left) || IsBooleanLiteral(node.right)
    ensures r.Some? ==> multiset{node.left, node.right} == multiset{Literal(BoolVal(r.value.0)), r.value.1}
    ensures IsBooleanLiteral(node.left) ==> r.Some? && r.value.1 == node.right
  {
    if IsBooleanLiteral(node.left) then Some((node.left.value.b, node.right))
    else if IsBooleanLiteral(node.right) then Some((node.right.value.b, node.left))
    else None
  }

  /** `BinaryExpression`: only strict (in)equality against a boolean literal,
      with a tracked identifier on the other side, is reported; the fix is the
      identifier or its negation. */
  function CheckBinary(tracked: Tracked, node: Node): (r: Option<Report<Message>>)
    requires node.BinaryExpression?
    ensures r.Some? ==> node.operator == "===" || node.operator == "!=="
    ensures r.Some? ==> r.value.node == node && r.value.fix.ReplaceText? && r.value.fix.node == node
    ensures r.Some? ==> !r.value.fix.text.Verbatim? && r.value.fix.text.src.Identifier? && r.value.fix.text.src.name in tracked
    ensures r.Some? ==> r.value.fix.text.src == node.left || r.value.fix.text.src == node.right
  {
    if node.operator == "===" || node.operator == "!==" then
      match SplitComparison(node)
      case Some((lit, other)) =>
        if other.Identifier? && other.name in tracked then
          var strict := node.operator == "===";
          var (message, text) :=
            if strict && lit then (TrueUseDirectly, SourceText(other))
            else if !strict && lit then (TrueUseNegation, NegatedSource(other))
            else if strict && !lit then (FalseUseNegation, NegatedSource(other))
            else (FalseUseDirectly, SourceText(other));
          Some(Report(node, message, ReplaceText(node, text)))
        else None
      case None => None
    else None
  }

  function Visit(tracked: Tracked, node: Node): (r: (Tracked, seq<Report<Message>>))
    ensures |r.1| <= 1
    ensures tracked <= r.0
    ensures r.1 != [] ==> node.BinaryExpression? && r.0 == tracked
  {
    match node
    case VariableDeclarator(_, _) => (DeclareVariable(tracked, node), [])
    case FunctionDeclaration(params) => (DeclareParams(tracked, params), [])
    case ArrowFunctionExpression(params) => (DeclareParams(tracked, params), [])
    case BinaryExpression(_, _, _) => (tracked, ToSeq(CheckBinary(tracked, node)))
    case _ => (tracked, [])
  }

  function Run(tracked: Tracked, events: seq<Node>): (Tracked, seq<Report<Message>>)
    decreases |events|
  {
    if |events| == 0 then (tracked, [])
    else
      var (t1, reports1) := Visit(tracked, events[0]);
      var (t2, reports2) := Run(t1, events[1..]);
      (t2, reports1 + reports2)
  }
}

=== FILE: boolean_compare_props.dfy ===
/** Properties of the boolean-literal-compare rule: which annotations count
    as boolean, that every rewrite evaluates to the comparison it replaces
    when the tracked names hold booleans, and what a traversal tracks. */
module BooleanLiteralCompareProperties {
  import opened Ast
  import opened BooleanLiteralCompare

  /** Current values of the variables, for those that hold booleans. */
  type Valuation = map<string, bool>

  /** The value of a boolean literal or a variable with a known value. */
  function Eval(vals: Valuation, e: Node): Option<bool> {
    match e
    case Literal(BoolVal(b)) => Some(b)
    case Identifier(x) => if x in vals then Some(vals[x]) else None
    case _ => None
  }

  /** `===` and `!==` on two booleans. */
  function StrictCompare(op: string, a: bool, b: bool): bool {
    if op == "===" then a == b else a != b
  }

  /** The value of the text a fix inserts. */
  function EvalText(vals: Valuation, t: FixText): Option<bool> {
    match t
    case SourceText(n) => Eval(vals, n)
    case NegatedSource(n) => if Eval(vals, n).Some? then Some(!Eval(vals, n).value) else None
    case Verbatim(_) => None
  }

  /** The message for comparing a tracked name with the literal `lit` by
      `===` (`strict`) or by `!==`. */
  function MessageFor(strict: bool, lit: bool): Message {
    match (strict, lit)
    case (true, true) => TrueUseDirectly
    case (false, true) => TrueUseNegation
    case (true, false) => FalseUseNegation
    case (false, false) => FalseUseDirectly
  }

  /** When every tracked name holds a boolean, the rewrite of a reported
      comparison has the comparison's value. */
  lemma RewritePreservesValue(tracked: Tracked, vals: Valuation, node: Node)
    requires node.BinaryExpression?
    requires tracked <= vals.Keys
    requires CheckBinary(tracked, node).Some?
    ensures Eval(vals, node.left).Some? && Eval(vals, node.right).Some?
    ensures EvalText(vals, CheckBinary(tracked, node).value.fix.text)
         == Some(StrictCompare(node.operator, Eval(vals, node.left).value, Eval(vals, node.right).value))
  {
  }

  /** With a literal on either side of a tracked name: reported exactly under
      `===` and `!==`; the same message and fix text in both operand orders;
      a negation exactly when the comparison flips the variable's value; and
      the message names the literal and whether the fix uses the variable
      directly or negated. */
  lemma ComparisonReportedIff(tracked: Tracked, op: string, lit: bool, x: string)
    ensures var r := CheckBinary(tracked, BinaryExpression(op, Identifier(x), Literal(BoolVal(lit))));
      r.Some? <==> (op == "===" || op == "!==") && x in tracked
    ensures var r := CheckBinary(tracked, BinaryExpression(op, Identifier(x), Literal(BoolVal(lit))));
      var m := CheckBinary(tracked, BinaryExpression(op, Literal(BoolVal(lit)), Identifier(x)));
      r.Some? <==> m.Some? && (r.Some? ==> r.value.message == m.value.message && r.value.fix.text == m.value.fix.text)
    ensures var r := CheckBinary(tracked, BinaryExpression(op, Identifier(x), Literal(BoolVal(lit))));
      r.Some? ==> (r.value.fix.text.NegatedSource? <==> (op == "===") != lit)
    ensures var r := CheckBinary(tracked, BinaryExpression(op, Identifier(x), Literal(BoolVal(lit))));
      r.Some? ==> r.value.message == MessageFor(op == "===", lit)
  {
  }

  /** When exactly one operand is a boolean literal, the operand order does
      not change the split. */
  lemma SplitIsSymmetric(op: string, a: Node, b: Node)
    requires IsBooleanLiteral(a) != IsBooleanLiteral(b)
    ensures SplitComparison(BinaryExpression(op, a, b)) == SplitComparison(BinaryExpression(op, b, a))
  {
  }

  /** Two literals, or a literal against anything but a tracked identifier,
      are never reported. */
  lemma OtherOperandsNotReported(tracked: Tracked, op: string, lit: bool, other: Node)
    requires !(other.Identifier? && other.name in tracked)
    ensures CheckBinary(tracked, BinaryExpression(op, Literal(BoolVal(lit)), other)).None?
    ensures !IsBooleanLiteral(other) ==> CheckBinary(tracked, BinaryExpression(op, other, Literal(BoolVal(lit)))).None?
  {
  }

  /** A node declares `x` as boolean: a declarator or a parameter whose
      annotation is strictly boolean. */
  predicate DeclaresName(node: Node, x: string) {
    match node
    case VariableDeclarator(id, _) => DeclaresBoolean(id) && id.name == x
    case FunctionDeclaration(ps) => exists i :: 0 <= i < |ps| && DeclaresBoolean(ps[i]) && ps[i].name == x
    case ArrowFunctionExpression(ps) => exists i :: 0 <= i < |ps| && DeclaresBoolean(ps[i]) && ps[i].name == x
    case _ => false
  }

  /** After a traversal, the tracked names are exactly the initial ones plus
      those some visited node declares as boolean. */
  lemma {:induction false} RunTracksExactly(tracked: Tracked, events: seq<Node>, x: string)
    ensures x in Run(tracked, events).0 <==>
      x in tracked || exists i :: 0 <= i < |events| && DeclaresName(events[i], x)
    decreases |events|
  {
    if |events| > 0 {
      var t1 := Visit(tracked, events[0]).0;
      assert x in t1 <==> x in tracked || DeclaresName(events[0], x);
      RunTracksExactly(t1, events[1..], x);
      assert forall i :: 1 <= i < |events| ==> events[i] == events[1..][i - 1];
    }
  }

  /** Every report of a traversal is about one of its strict comparisons. */
  lemma {:induction false} RunReportsComparisons(tracked: Tracked, events: seq<Node>)
    ensures forall rep :: rep in Run(tracked, events).1 ==>
      && rep.node in events
      && rep.node.BinaryExpression?
      && (rep.node.operator == "===" || rep.node.operator == "!==")
    decreases |events|
  {
    if |events| > 0 {
      RunReportsComparisons(Visit(tracked, events[0]).0, events[1..]);
      var v := Visit(tracked, events[0]);
      var rest := Run(v.0, events[1..]);
      assert Run(tracked, events).1 == v.1 + rest.1;
      forall rep | rep in Run(tracked, events).1
        ensures rep.node in events && rep.node.BinaryExpression?
        ensures rep.node.operator == "===" || rep.node.operator == "!=="
      {
        if rep in v.1 {
          assert rep == v.1[0];
        } else {
          assert rep in rest.1;
          assert rep.node in events[1..];
        }
      }
    }
  }

  /** A comparison visited before the declaration of its variable is not
      reported; visited after it, it is. */
  lemma DeclarationMustComeFirst()
    ensures var decl := VariableDeclarator(BindingIdent("x", Some(TypeAnnotation(BooleanKeyword))), None);
      var cmp := BinaryExpression("===", Identifier("x"), Literal(BoolVal(true)));
      && Run({}, [cmp, decl]).1 == []
      && Run({}, [decl, cmp]).1 == [Report(cmp, TrueUseDirectly, ReplaceText(cmp, SourceText(Identifier("x"))))]
  {
    var decl := VariableDeclarator(BindingIdent("x", Some(TypeAnnotation(BooleanKeyword))), None);
    var cmp := BinaryExpression("===", Identifier("x"), Literal(BoolVal(true)));
    assert [cmp, decl][1..] == [decl];
    assert [decl, cmp][1..] == [cmp];
    assert [decl][1..] == [];
    assert [cmp][1..] == [];
    assert Visit({}, cmp) == ({}, []);
    assert Run({}, [decl]).1 == [];
    assert Run({}, [cmp, decl]).1 == Visit({}, cmp).1 + Run({}, [decl]).1;
  }
}

=== FILE: js_types.dfy ===
/** A reference semantics for the rules' verdicts: which runtime types
    (`typeof` classes, with `null` separated from objects) an expression can
    evaluate to under the ECMAScript operator rules. It is an
    over-approximation: `TypesOf(env, e)` contains every type `e` can yield;
    an expression that throws yields nothing. `env` gives, for the variables
    it mentions, the types their current values can have; any other
    identifier can hold anything. The global `String`, `Number`, `Boolean`
    and `BigInt` functions are taken to be the built-ins.

    This module is not a model of the analyzer: it is the yardstick the
    analyzer's "definitely K" and "non-null" verdicts are proved against. */
module JsTypes {
  import opened Ast

  datatype JsType = TString | TNumber | TBoolean | TBigInt | TSymbol | TUndefined | TNull | TObject | TFunction

  type Env = map<string, set<JsType>>

  const AllTypes: set<JsType> :=
    {TString, TNumber, TBoolean, TBigInt, TSymbol, TUndefined, TNull, TObject, TFunction}

  const Nullish: set<JsType> := {TNull, TUndefined}

  function LiteralType(v: LitValue): JsType {
    match v
    case StrVal(_) => TString
    case NumVal => TNumber
    case BoolVal(_) => TBoolean
    case BigIntVal => TBigInt
    case NullVal => TNull
    case RegExpVal => TObject
  }

  /** `+`: two numbers add, two BigInts add, a string on either side
      concatenates; other mixes convert to a primitive first and give a
      string, a number or a BigInt. */
  function AddTypes(l: set<JsType>, r: set<JsType>): set<JsType> {
    if l <= {TNumber} && r <= {TNumber} then {TNumber}
    else if l <= {TBigInt} && r <= {TBigInt} then {TBigInt}
    else if l <= {TString} || r <= {TString} then {TString}
    else {TString, TNumber, TBigInt}
  }

  /** `- * / % **` and the bitwise `& | ^ << >>`: numbers give a number,
      BigInts a BigInt, a mix of the two throws. */
  function NumericTypes(l: set<JsType>, r: set<JsType>): set<JsType> {
    if l <= {TNumber} && r <= {TNumber} then {TNumber}
    else if l <= {TBigInt} && r <= {TBigInt} then {TBigInt}
    else {TNumber, TBigInt}
  }

  /** Unary `-` and `~`. */
  function NegateTypes(a: set<JsType>): set<JsType> {
    if a <= {TNumber} then {TNumber}
    else if a <= {TBigInt} then {TBigInt}
    else {TNumber, TBigInt}
  }

  const NumericOperators: set<string> := {"-", "*", "/", "%", "**", "&", "|", "^", "<<", ">>"}

  const RelationalOperators: set<string> :=
    {"==", "!=", "===", "!==", "<", ">", "<=", ">=", "in", "instanceof"}

  /** The binary operators of the language, plus `??`. */
  predicate KnownBinaryOperator(op: string) {
    op == "+" || op == ">>>" || op == "??" || op in NumericOperators || op in RelationalOperators
  }

  function TypesOf(env: Env, e: Node): set<JsType> {
    match e
    case Literal(v) => {LiteralType(v)}
    case TemplateLiteral => {TString}
    case Identifier(x) => if x in env then env[x] else AllTypes
    case ArrayExpression => {TObject}
    case ObjectExpression(_) => {TObject}
    case NewExpression(_) => {TObject, TFunction}
    case BinaryExpression(op, l, r) =>
      var lt := TypesOf(env, l);
      var rt := TypesOf(env, r);
      if op == "+" then AddTypes(lt, rt)
      else if op in NumericOperators then NumericTypes(lt, rt)
      else if op == ">>>" then {TNumber}
      else if op in RelationalOperators then {TBoolean}
      else if op == "??" then (lt - Nullish) + (if lt * Nullish == {} then {} else rt)
      else AllTypes
    case UnaryExpression(op, a) =>
      if op == "!" || op == "delete" then {TBoolean}
      else if op == "typeof" then {TString}
      else if op == "void" then {TUndefined}
      else if op == "+" then {TNumber}
      else if op == "-" || op == "~" then NegateTypes(TypesOf(env, a))
      else AllTypes
    case CallExpression(Identifier("String"), _) => {TString}
    case CallExpression(Identifier("Number"), _) => {TNumber}
    case CallExpression(Identifier("Boolean"), _) => {TBoolean}
    case CallExpression(Identifier("BigInt"), _) => {TBigInt}
    case CallExpression(MemberExpression(o, Identifier("toString"), false), args) =>
      if |args| == 0 && TypesOf(env, o) <= {TString, TNumber, TBoolean, TBigInt} then {TString}
      else AllTypes
    case AssignmentExpression(op, l, r) =>
      // the value assigned, which is the expression's value
      if op == "=" then TypesOf(env, r)
      else if op == "+=" then AddTypes(TypesOf(env, l), TypesOf(env, r))
      else AllTypes
    case AsExpression(x, _) => TypesOf(env, x)
    case TypeAssertion(x, _) => TypesOf(env, x)
    case NonNullExpression(x) => TypesOf(env, x)
    case _ => AllTypes
  }

  /** The environment after `x = e` or `x += e` has run: `x` holds the
      assigned value. Other assignments leave the environment as it is. */
  function Assign(env: Env, node: Node): Env {
    match node
    case AssignmentExpression(op, Identifier(x), _) =>
      if op == "=" || op == "+=" then env[x := TypesOf(env, node)] else env
    case _ => env
  }
}

=== FILE: type_assertion.dfy ===
/** The `no-unnecessary-type-assertion` rule: one registry shared by type
    aliases, interfaces, classes and variables (one namespace, last write
    wins), and the checks for `e as T`, `<T>e` and `e!`. */
module TypeAssertion {
  import opened Ast
  import opened TypeNames

  /** A registry entry. The source keeps one untyped record per name whose
      `type` field is the string tag `"alias"`, `"interface"` or `"class"`,
      or, for a variable, the declared `TSTypeAnnotation` (possibly absent). */
  datatype Entry =
    | AliasEntry(aliasType: TypeNode)
    | VariableEntry(annotation: Option<TypeNode>, properties: set<string>, className: Option<string>)
    | InterfaceEntry(interfaceName: string, properties: set<string>)
    | ClassEntry(name: string, properties: set<string>)

  type Registry = map<string, Entry>

  datatype Message =
    | UnnecessaryAssertion
    | AnyCastPropertyExists(propName: string, varName: string)
    | AssertionWhenAccessingProperty
    | AlreadyType(varName: string, actualTypeName: string)
    | UnnecessaryNonNull
    | NotNullable(varName: string)

  /** The `properties` set of an entry; aliases have none. */
  function PropertiesOf(e: Entry): Option<set<string>> {
    match e
    case AliasEntry(_) => None
    case VariableEntry(_, ps, _) => Some(ps)
    case InterfaceEntry(_, ps) => Some(ps)
    case ClassEntry(_, ps) => Some(ps)
  }

  /** The `className` field: the constructor named in a variable's
      `new C()` initializer, and a class entry's own name. */
  function ClassLink(e: Entry): Option<string> {
    match e
    case VariableEntry(_, _, c) => c
    case ClassEntry(n, _) => Some(n)
    case _ => None
  }

  /** `extractProperties`: the property signatures of a type-literal
      annotation. */
  function AnnotationProperties(ann: TypeNode): set<string> {
    match ann
    case TypeAnnotation(TypeLiteral(ms)) => NamesOf(ms, {PropertySignature})
    case _ => {}
  }

  /** The name a `new C()` initializer constructs. */
  function ConstructedClass(init: Option<Node>): Option<string> {
    match init
    case Some(NewExpression(Identifier(c))) => Some(c)
    case _ => None
  }

  // ----- registry callbacks -----

  /** `TSTypeAliasDeclaration`: afterwards a reference to the alias, with
      any type arguments, resolves to the aliased type; no other entry
      changes. */
  function DeclareAlias(reg: Registry, node: Node): (r: Registry)
    requires node.TypeAliasDeclaration?
    ensures node.aliasId.Identifier? ==>
      var n := node.aliasId.name;
      && r.Keys == reg.Keys + {n}
      && (forall args :: ResolveAlias(r, TypeReference(Some(n), args)) == node.typeAnnotation)
      && PropertiesOf(r[n]).None? && ClassLink(r[n]).None?
      && forall k :: k in reg && k != n ==> r[k] == reg[k]
    ensures !node.aliasId.Identifier? ==> r == reg
  {
    if node.aliasId.Identifier? then reg[node.aliasId.name := AliasEntry(node.typeAnnotation)] else reg
  }

  /** `VariableDeclarator`: the entry's properties are the annotation's
      type-literal property signatures together with the identifier keys of
      an object-literal initializer. */
  function DeclareVariable(reg: Registry, node: Node): (r: Registry)
    requires node.VariableDeclarator?
    ensures node.id.BindingIdent? ==>
      && r.Keys == reg.Keys + {node.id.name}
      && r[node.id.name].VariableEntry?
      && r[node.id.name].annotation == node.id.annotation
      && r[node.id.name].className == ConstructedClass(node.init)
      && (forall p :: p in r[node.id.name].properties <==>
            (node.id.annotation.Some? && p in AnnotationProperties(node.id.annotation.value))
            || (node.init.Some? && node.init.value.ObjectExpression? &&
                exists i :: 0 <= i < |node.init.value.properties| && node.init.value.properties[i] == Property(Some(p))))
      && forall k :: k in reg && k != node.id.name ==> r[k] == reg[k]
    ensures !node.id.BindingIdent? ==> r == reg
  {
    match node.id
    case BindingIdent(name, ann) =>
      var fromType := if ann.Some? then AnnotationProperties(ann.value) else {};
      var fromInit := match node.init
        case Some(ObjectExpression(ps)) => ObjectKeys(ps)
        case _ => {};
      reg[name := VariableEntry(ann, fromType + fromInit, ConstructedClass(node.init))]
    case OtherPattern => reg
  }

  /** `TSInterfaceDeclaration`: property and method signatures. */
  function DeclareInterface(reg: Registry, node: Node): (r: Registry)
    requires node.InterfaceDeclaration?
    ensures node.interfaceId.Some? && node.interfaceId.value.Identifier? ==>
      var n := node.interfaceId.value.name;
      && r.Keys == reg.Keys + {n}
      && r[n].InterfaceEntry? && r[n].interfaceName == n
      && (forall p :: p in r[n].properties <==>
            exists i :: 0 <= i < |node.body| && node.body[i].key == Some(p) &&
              (node.body[i].kind == PropertySignature || node.body[i].kind == MethodSignature))
      && forall k :: k in reg && k != n ==> r[k] == reg[k]
    ensures !(node.interfaceId.Some? && node.interfaceId.value.Identifier?) ==> r == reg
  {
    match node.interfaceId
    case Some(Identifier(n)) => reg[n := InterfaceEntry(n, NamesOf(node.body, {PropertySignature, MethodSignature}))]
    case _ => reg
  }

  /** `ClassDeclaration`: property and method definitions. */
  function DeclareClass(reg: Registry, node: Node): (r: Registry)
    requires node.ClassDeclaration?
    ensures node.classId.Some? ==>
      var n := node.classId.value;
      && r.Keys == reg.Keys + {n}
      && r[n].ClassEntry? && r[n].name == n
      && (forall p :: p in r[n].properties <==>
            exists i :: 0 <= i < |node.body| && node.body[i].key == Some(p) &&
              (node.body[i].kind == PropertyDefinition || node.body[i].kind == MethodDefinition))
      && forall k :: k in reg && k != n ==> r[k] == reg[k]
    ensures node.classId.None? ==> r == reg
  {
    match node.classId
    case Some(n) => reg[n := ClassEntry(n, NamesOf(node.body, {PropertyDefinition, MethodDefinition}))]
    case None => reg
  }

  // ----- helpers of the checks -----

  /** `getActualTypeName`. */
  function ActualTypeName(e: Entry): Option<string> {
    match e
    case ClassEntry(n, _) => Some(n)
    case InterfaceEntry(n, _) => Some(n)
    case VariableEntry(Some(TypeAnnotation(inner)), _, _) => CastTypeName(inner)
    case _ => None
  }

  /** `hasProperty`: the entry's own properties, then those of the entry its
      `className` names. */
  predicate HasProperty(reg: Registry, e: Entry, prop: string) {
    (PropertiesOf(e).Some? && prop in PropertiesOf(e).value)
    || (Truthy(ClassLink(e)) && ClassLink(e).value in reg
        && PropertiesOf(reg[ClassLink(e).value]).Some?
        && prop in PropertiesOf(reg[ClassLink(e).value]).value)
  }

  /** One alias hop: a reference to a registered alias stands for the alias's
      target; anything else stands for itself. */
  function ResolveAlias(reg: Registry, t: TypeNode): TypeNode {
    match t
    case TypeReference(Some(n), _) => if n in reg && reg[n].AliasEntry? then reg[n].aliasType else t
    case _ => t
  }

  datatype Primitive = PNumber | PString | PBoolean

  /** A keyword, or an identifier reference spelling the keyword, for one of
      the three primitives the rule checks literals against. */
  function PrimitiveTarget(t: TypeNode): Option<Primitive> {
    match t
    case NumberKeyword => Some(PNumber)
    case StringKeyword => Some(PString)
    case BooleanKeyword => Some(PBoolean)
    case TypeReference(Some("number"), _) => Some(PNumber)
    case TypeReference(Some("string"), _) => Some(PString)
    case TypeReference(Some("boolean"), _) => Some(PBoolean)
    case _ => None
  }

  /** `isNumericExpression`: a purely syntactic test. */
  predicate IsNumericExpression(e: Node) {
    match e
    case Literal(NumVal) => true
    case BinaryExpression(op, l, r) => op in ArithmeticOperators && IsNumericExpression(l) && IsNumericExpression(r)
    case UnaryExpression(op, a) => (op == "+" || op == "-") && IsNumericExpression(a)
    case _ => false
  }

  /** `isUnnecessaryTypeAssertion`: the target, after one alias hop, is a
      primitive and the expression is of it by its syntax alone. */
  predicate IsUnnecessaryTypeAssertion(reg: Registry, e: Node, t: TypeNode) {
    match PrimitiveTarget(ResolveAlias(reg, t))
    case Some(PNumber) => IsNumericExpression(e)
    case Some(PString) => e.Literal? && e.value.StrVal?
    case Some(PBoolean) => e.Literal? && e.value.BoolVal?
    case None => false
  }

  /** `isDefinitelyNonNull`. */
  predicate IsDefinitelyNonNull(e: Node) {
    match e
    case Literal(v) => v != NullVal
    case ArrayExpression => true
    case ObjectExpression(_) => true
    case NewExpression(_) => true
    case _ => IsNumericExpression(e) || (e.BinaryExpression? && e.operator != "??")
  }

  /** `isNullableType` of a declared `TSTypeAnnotation`: a union with a
      `null` or `undefined` member, or an optional type. */
  predicate IsNullableType(t: TypeNode) {
    match t
    case TypeAnnotation(UnionType(ts)) => exists i :: 0 <= i < |ts| && (ts[i].NullKeyword? || ts[i].UndefinedKeyword?)
    case TypeAnnotation(OptionalType(_)) => true
    case _ => false
  }

  /** `varInfo.type && !isNullableType(varInfo.type)`. A class, interface or
      alias entry's `type` is a non-empty string tag, which has no
      `typeAnnotation`, so it counts as not nullable. */
  predicate DeclaredNonNullable(e: Entry) {
    match e
    case VariableEntry(ann, _, _) => ann.Some? && !IsNullableType(ann.value)
    case _ => true
  }

  /** `varInfo.type?.typeAnnotation?.type === "TSUnknownKeyword"`. */
  predicate DeclaredUnknown(e: Entry) {
    e.VariableEntry? && e.annotation == Some(TypeAnnotation(UnknownKeyword))
  }

  /** The expression is an identifier whose entry is declared `unknown`. */
  predicate IsTrackedUnknown(reg: Registry, e: Node) {
    e.Identifier? && e.name in reg && DeclaredUnknown(reg[e.name])
  }

  /** `node.parent?.type === "MemberExpression" && node.parent.object === node`. */
  predicate IsAccessedObject(parent: Option<Parent>) {
    parent.Some? && parent.value.node.MemberExpression? && parent.value.role == AsObject
  }

  /** The last check both assertion forms share: the operand is a tracked
      identifier and the cast type's name is equivalent to its declared
      one. In particular a variable cast to the very type it was declared
      with is reported whenever that type has a name. */
  function SameTypeReport(reg: Registry, node: Node, e: Node, t: TypeNode): (r: Option<Report<Message>>)
    ensures r.Some? ==> e.Identifier? && e.name in reg && ActualTypeName(reg[e.name]).Some?
                        && r.value == Report(node, AlreadyType(e.name, ActualTypeName(reg[e.name]).value), ReplaceText(node, Verbatim(e.name)))
    ensures r.Some? <==> e.Identifier? && e.name in reg && Truthy(CastTypeName(t)) && Truthy(ActualTypeName(reg[e.name]))
                         && TypesAreEquivalent(CastTypeName(t).value, ActualTypeName(reg[e.name]).value)
    ensures (e.Identifier? && e.name in reg && reg[e.name].VariableEntry?
             && reg[e.name].annotation == Some(TypeAnnotation(t)) && Truthy(CastTypeName(t))) ==> r.Some?
  {
    if e.Identifier? && e.name in reg then
      var castName := CastTypeName(t);
      var actualName := ActualTypeName(reg[e.name]);
      if Truthy(castName) && Truthy(actualName) && TypesAreEquivalent(castName.value, actualName.value) then
        Some(Report(node, AlreadyType(e.name, actualName.value), ReplaceText(node, Verbatim(e.name))))
      else None
    else None
  }

  // ----- checks -----

  /** `TSAsExpression`, in the source's branch order: the member-operand
      gate, the primitive test, the `any`-then-property test, the
      member-access test, the same-type test. */
  function CheckAs(reg: Registry, node: Node, parent: Option<Parent>): (r: Option<Report<Message>>)
    requires node.AsExpression?
    ensures r.Some? ==> r.value.node == node && r.value.fix.ReplaceText? && r.value.fix.node == node
    ensures r.Some? ==> r.value.fix.text == SourceText(node.expression)
                        || (node.expression.Identifier? && r.value.fix.text == Verbatim(node.expression.name))
  {
    var e := node.expression;
    var t := node.typeAnnotation;
    var castToAny := t == AnyKeyword;
    var objectName := if !castToAny && e.MemberExpression? && e.obj.Identifier? then Some(e.obj.name) else None;
    if !castToAny && e.MemberExpression? && (!Truthy(objectName) || objectName.value !in reg) then None
    else if !castToAny && IsUnnecessaryTypeAssertion(reg, e, t) then
      Some(Report(node, UnnecessaryAssertion, ReplaceText(node, SourceText(e))))
    else if castToAny && parent.Some? && parent.value.node.MemberExpression?
            && parent.value.node.property.Identifier? && e.Identifier?
            && e.name in reg && HasProperty(reg, reg[e.name], parent.value.node.property.name) then
      Some(Report(node, AnyCastPropertyExists(parent.value.node.property.name, e.name), ReplaceText(node, Verbatim(e.name))))
    else if castToAny then None
    else if IsAccessedObject(parent) then
      if IsTrackedUnknown(reg, e) then None
      else Some(Report(node, AssertionWhenAccessingProperty, ReplaceText(node, SourceText(e))))
    else SameTypeReport(reg, node, e, t)
  }

  /** `TSTypeAssertion`: the member-access test comes first, there is no
      member-operand gate and no special case for `any`. */
  function CheckTypeAssertion(reg: Registry, node: Node, parent: Option<Parent>): (r: Option<Report<Message>>)
    requires node.TypeAssertion?
    ensures r.Some? ==> r.value.node == node && r.value.fix.ReplaceText? && r.value.fix.node == node
    ensures r.Some? ==> r.value.fix.text == SourceText(node.expression)
                        || (node.expression.Identifier? && r.value.fix.text == Verbatim(node.expression.name))
  {
    var e := node.expression;
    var t := node.typeAnnotation;
    if IsAccessedObject(parent) then
      if IsTrackedUnknown(reg, e) then None
      else Some(Report(node, AssertionWhenAccessingProperty, ReplaceText(node, SourceText(e))))
    else if IsUnnecessaryTypeAssertion(reg, e, t) then
      Some(Report(node, UnnecessaryAssertion, ReplaceText(node, SourceText(e))))
    else SameTypeReport(reg, node, e, t)
  }

  /** `TSNonNullExpression`. */
  function CheckNonNull(reg: Registry, node: Node): (r: Option<Report<Message>>)
    requires node.NonNullExpression?
    ensures r.Some? ==> r.value.node == node && r.value.fix.ReplaceText? && r.value.fix.node == node
    ensures r.Some? ==> r.value.fix.text == SourceText(node.expression)
                        || (node.expression.Identifier? && r.value.fix.text == Verbatim(node.expression.name))
  {
    var e := node.expression;
    if IsDefinitelyNonNull(e) then
      Some(Report(node, UnnecessaryNonNull, ReplaceText(node, SourceText(e))))
    else if e.Identifier? && e.name in reg && DeclaredNonNullable(reg[e.name]) then
      Some(Report(node, NotNullable(e.name), ReplaceText(node, Verbatim(e.name))))
    else None
  }

  // ----- the visitor map -----

  predicate IsRegistryDeclaration(node: Node) {
    node.TypeAliasDeclaration? || node.VariableDeclarator? || node.InterfaceDeclaration? || node.ClassDeclaration?
  }

  predicate IsAssertion(node: Node) {
    node.AsExpression? || node.TypeAssertion? || node.NonNullExpression?
  }

  /** One callback invocation: the host calls the callback registered for
      the node's kind; other kinds are not visited. */
  function Visit(reg: Registry, node: Node, parent: Option<Parent>): (r: (Registry, seq<Report<Message>>))
    ensures |r.1| <= 1
    ensures reg.Keys <= r.0.Keys
    ensures !IsRegistryDeclaration(node) ==> r.0 == reg
    ensures forall rep :: rep in r.1 ==> rep.node == node && IsAssertion(node)
  {
    match node
    case TypeAliasDeclaration(_, _) => (DeclareAlias(reg, node), [])
    case VariableDeclarator(_, _) => (DeclareVariable(reg, node), [])
    case InterfaceDeclaration(_, _) => (DeclareInterface(reg, node), [])
    case ClassDeclaration(_, _) => (DeclareClass(reg, node), [])
    case AsExpression(_, _) => (reg, ToSeq(CheckAs(reg, node, parent)))
    case TypeAssertion(_, _) => (reg, ToSeq(CheckTypeAssertion(reg, node, parent)))
    case NonNullExpression(_) => (reg, ToSeq(CheckNonNull(reg, node)))
    case _ => (reg, [])
  }

  /** A whole traversal, from the registry `create` starts with (empty). */
  function Run(reg: Registry, events: seq<Event>): (Registry, seq<Report<Message>>)
    decreases |events|
  {
    if |events| == 0 then (reg, [])
    else
      var (reg1, reports1) := Visit(reg, events[0].node, events[0].parent);
      var (reg2, reports2) := Run(reg1, events[1..]);
      (reg2, reports1 + reports2)
  }
}

=== FILE: type_assertion_props.dfy ===
/** What the type-assertion rule's verdicts mean: soundness of its syntactic
    tests against the runtime-type semantics, the exact conditions under
    which each assertion form is reported, and what a traversal does to the
    registry. */
module TypeAssertionProperties {
  import opened Ast
  import opened JsTypes
  import opened TypeNames
  import opened TypeAssertion

  function PrimitiveType(p: Primitive): JsType {
    match p
    case PNumber => TNumber
    case PString => TString
    case PBoolean => TBoolean
  }

  // ----- soundness of the syntactic tests -----

  /** A numeric expression evaluates to a number, whatever the variables
      hold: it mentions none. */
  lemma {:induction false} NumericExpressionIsNumber(env: Env, e: Node)
    requires IsNumericExpression(e)
    ensures TypesOf(env, e) == {TNumber}
  {
    match e
    case Literal(_) =>
    case BinaryExpression(op, l, r) =>
      NumericExpressionIsNumber(env, l);
      NumericExpressionIsNumber(env, r);
    case UnaryExpression(op, a) =>
      NumericExpressionIsNumber(env, a);
  }

  /** An identifier is never numeric, nor is any operator outside the
      arithmetic ones. */
  lemma NumericExpressionShape(e: Node)
    ensures e.Identifier? ==> !IsNumericExpression(e)
    ensures e.BinaryExpression? && e.operator !in ArithmeticOperators ==> !IsNumericExpression(e)
    ensures e.UnaryExpression? && e.operator != "+" && e.operator != "-" ==> !IsNumericExpression(e)
    ensures e.BinaryExpression? && e.operator in ArithmeticOperators ==>
      (IsNumericExpression(e) <==> IsNumericExpression(e.left) && IsNumericExpression(e.right))
  {
  }

  /** A primitive assertion is reported only when the target, after one
      alias hop, names a primitive the expression already has at run time. */
  lemma {:induction false} UnnecessaryAssertionSound(reg: Registry, env: Env, e: Node, t: TypeNode)
    requires IsUnnecessaryTypeAssertion(reg, e, t)
    ensures PrimitiveTarget(ResolveAlias(reg, t)).Some?
    ensures TypesOf(env, e) == {PrimitiveType(PrimitiveTarget(ResolveAlias(reg, t)).value)}
  {
    if PrimitiveTarget(ResolveAlias(reg, t)) == Some(PNumber) {
      NumericExpressionIsNumber(env, e);
    }
  }

  /** A reference to an alias of a primitive resolves to it. */
  lemma AliasOfPrimitiveResolves(reg: Registry, a: string, target: TypeNode, args: seq<TypeNode>, e: Node)
    requires a in reg && reg[a] == AliasEntry(target)
    requires PrimitiveTarget(target) == Some(PNumber)
    ensures IsUnnecessaryTypeAssertion(reg, e, TypeReference(Some(a), args)) <==> IsNumericExpression(e)
  {
  }

  /** Alias resolution is one hop: an alias of an alias of a primitive does
      not reach the primitive. */
  lemma AliasResolutionIsOneHop(reg: Registry, a: string, b: string, bArgs: seq<TypeNode>, args: seq<TypeNode>, e: Node)
    requires a in reg && reg[a] == AliasEntry(TypeReference(Some(b), bArgs))
    requires b != "number" && b != "string" && b != "boolean"
    ensures !IsUnnecessaryTypeAssertion(reg, e, TypeReference(Some(a), args))
  {
  }

  /** The primitive test only accepts literals and numeric expressions: an
      identifier operand never passes it. */
  lemma IdentifierNeverPrimitiveRedundant(reg: Registry, x: string, t: TypeNode)
    ensures !IsUnnecessaryTypeAssertion(reg, Identifier(x), t)
  {
  }

  /** `isDefinitelyNonNull` holds exactly for non-null literals, array,
      object and `new` expressions, binaries other than `??`, and `+`/`-`
      of a numeric operand. */
  lemma NonNullCharacterization(e: Node)
    ensures IsDefinitelyNonNull(e) <==>
      || (e.Literal? && e.value != NullVal)
      || e.ArrayExpression? || e.ObjectExpression? || e.NewExpression?
      || (e.BinaryExpression? && e.operator != "??")
      || (e.UnaryExpression? && (e.operator == "+" || e.operator == "-") && IsNumericExpression(e.argument))
  {
  }

  /** A definitely-non-null expression (with a real binary operator) cannot
      evaluate to `null` or `undefined`. */
  lemma NonNullSound(env: Env, e: Node)
    requires IsDefinitelyNonNull(e)
    requires e.BinaryExpression? ==> KnownBinaryOperator(e.operator)
    ensures TypesOf(env, e) * Nullish == {}
  {
    if e.UnaryExpression? {
      NumericExpressionIsNumber(env, e);
    } else if e.BinaryExpression? {
      var lt := TypesOf(env, e.left);
      var rt := TypesOf(env, e.right);
      assert e.operator != "??";
    }
  }

  // ----- helpers -----

  /** `getActualTypeName` for each kind of entry: a class's or an
      interface's own name, the rendered annotation of a variable, and
      nothing for an alias or an unannotated variable. */
  lemma ActualTypeNameByEntry(e: Entry)
    ensures e.ClassEntry? ==> ActualTypeName(e) == Some(e.name)
    ensures e.InterfaceEntry? ==> ActualTypeName(e) == Some(e.interfaceName)
    ensures e.AliasEntry? ==> ActualTypeName(e) == None
    ensures e.VariableEntry? && e.annotation.None? ==> ActualTypeName(e) == None
    ensures e.VariableEntry? && e.annotation.Some? && e.annotation.value.TypeAnnotation? ==>
      ActualTypeName(e) == CastTypeName(e.annotation.value.inner)
    ensures e.VariableEntry? && e.annotation.Some? && WellFormedNames(e.annotation.value) && ActualTypeName(e).Some? ==>
      Plain(ActualTypeName(e).value)
  {
  }

  /** `hasProperty` for each kind of entry: an alias has no properties; an
      interface, and a class registered under its own name, have exactly
      their declared ones; a variable has its own, plus those of the entry
      its `new C()` initializer names. */
  lemma HasPropertyByEntry(reg: Registry, e: Entry, p: string)
    ensures e.AliasEntry? ==> !HasProperty(reg, e, p)
    ensures e.InterfaceEntry? ==> (HasProperty(reg, e, p) <==> p in e.properties)
    ensures e.ClassEntry? && e.name in reg && reg[e.name] == e ==> (HasProperty(reg, e, p) <==> p in e.properties)
    ensures e.VariableEntry? && (e.className.None? || e.className.value !in reg) ==>
      (HasProperty(reg, e, p) <==> p in e.properties)
    ensures e.VariableEntry? && e.className.Some? && e.className.value != "" && e.className.value in reg ==>
      (HasProperty(reg, e, p) <==>
         || p in e.properties
         || (PropertiesOf(reg[e.className.value]).Some? && p in PropertiesOf(reg[e.className.value]).value))
  {
  }

  // ----- `e as T` -----

  /** A cast to `any` is reported exactly when it is accessed through an
      identifier property that the operand's entry (or the entry its
      `className` names) declares; the fix is the bare variable name. */
  lemma AnyCastGate(reg: Registry, node: Node, parent: Option<Parent>)
    requires node.AsExpression? && node.typeAnnotation == AnyKeyword
    ensures CheckAs(reg, node, parent).Some? <==>
      && parent.Some? && parent.value.node.MemberExpression? && parent.value.node.property.Identifier?
      && node.expression.Identifier? && node.expression.name in reg
      && var entry := reg[node.expression.name];
         var p := parent.value.node.property.name;
         || (PropertiesOf(entry).Some? && p in PropertiesOf(entry).value)
         || (Truthy(ClassLink(entry)) && ClassLink(entry).value in reg
             && PropertiesOf(reg[ClassLink(entry).value]).Some?
             && p in PropertiesOf(reg[ClassLink(entry).value]).value)
    ensures CheckAs(reg, node, parent).Some? ==>
      CheckAs(reg, node, parent).value ==
        Report(node, AnyCastPropertyExists(parent.value.node.property.name, node.expression.name),
               ReplaceText(node, Verbatim(node.expression.name)))
  {
  }

  /** The `any` gate reads the property's name, not its value: with `x`
      declared to have a property `p`, the bracket access `(x as any)[p]`
      is reported exactly like `(x as any).p`, whatever the variable `p`
      holds. */
  lemma ComputedAnyAccessUsesName(computed: bool)
    ensures var reg := map["x" := VariableEntry(None, {"p"}, None)];
      var node := AsExpression(Identifier("x"), AnyKeyword);
      var parent := Parent(MemberExpression(node, Identifier("p"), computed), AsObject);
      CheckAs(reg, node, Some(parent)) == Some(Report(node, AnyCastPropertyExists("p", "x"), ReplaceText(node, Verbatim("x"))))
  {
  }

  /** A non-`any` cast of a member expression whose object is not a
      tracked identifier is never reported. */
  lemma UntrackedMemberOperandNotReported(reg: Registry, node: Node, parent: Option<Parent>)
    requires node.AsExpression? && node.typeAnnotation != AnyKeyword
    requires node.expression.MemberExpression?
    requires !node.expression.obj.Identifier? || node.expression.obj.name !in reg
    ensures CheckAs(reg, node, parent).None?
  {
  }

  /** A non-`any` cast that is the object of a member access is reported
      unless the member-operand gate stops it or its operand is an
      identifier declared `unknown`: a member-expression operand is reported
      exactly when its object is a tracked identifier, any other operand
      exactly when it is not tracked as `unknown`. The primitive test is
      tried first, so `(1 as number).toFixed()` is reported as unnecessary,
      not as an assertion when accessing a property. */
  lemma AccessedCastReported(reg: Registry, node: Node, parent: Option<Parent>)
    requires node.AsExpression? && node.typeAnnotation != AnyKeyword
    requires IsAccessedObject(parent)
    ensures var e := node.expression;
      CheckAs(reg, node, parent).Some? <==>
        if e.MemberExpression? then e.obj.Identifier? && e.obj.name != "" && e.obj.name in reg
        else !IsTrackedUnknown(reg, e)
    ensures CheckAs(reg, node, parent).Some? ==>
      CheckAs(reg, node, parent).value.message in {UnnecessaryAssertion, AssertionWhenAccessingProperty}
    ensures CheckAs(reg, node, parent).Some? ==>
      CheckAs(reg, node, parent).value ==
        Report(node,
               if IsUnnecessaryTypeAssertion(reg, node.expression, node.typeAnnotation) then UnnecessaryAssertion
               else AssertionWhenAccessingProperty,
               ReplaceText(node, SourceText(node.expression)))
  {
  }

  /** Outside a member access, a non-`any` cast is reported as unnecessary
      when the primitive test flags it, and otherwise exactly when the
      same-type test does. */
  lemma AsOutsideMemberAccess(reg: Registry, e: Node, t: TypeNode, parent: Option<Parent>)
    requires t != AnyKeyword && !IsAccessedObject(parent)
    ensures var node := AsExpression(e, t);
      CheckAs(reg, node, parent) ==
        if IsUnnecessaryTypeAssertion(reg, e, t) then Some(Report(node, UnnecessaryAssertion, ReplaceText(node, SourceText(e))))
        else SameTypeReport(reg, node, e, t)
  {
  }

  /** A variable cast to the very type it was declared with is reported,
      in both assertion forms, when that type has a name and the cast is
      not the object of a member access. */
  lemma CastToDeclaredTypeReported(reg: Registry, x: string, t: TypeNode, ps: set<string>, c: Option<string>,
                                   parent: Option<Parent>)
    requires x in reg && reg[x] == VariableEntry(Some(TypeAnnotation(t)), ps, c)
    requires t != AnyKeyword && !IsAccessedObject(parent) && Truthy(CastTypeName(t))
    ensures var node := AsExpression(Identifier(x), t);
      CheckAs(reg, node, parent) == Some(Report(node, AlreadyType(x, CastTypeName(t).value), ReplaceText(node, Verbatim(x))))
    ensures var node := TypeAssertion(Identifier(x), t);
      CheckTypeAssertion(reg, node, parent) == Some(Report(node, AlreadyType(x, CastTypeName(t).value), ReplaceText(node, Verbatim(x))))
  {
    IdentifierNeverPrimitiveRedundant(reg, x, t);
    AsOutsideMemberAccess(reg, Identifier(x), t, parent);
  }

  /** `"hello" as string` and `<number>(1 + 2)` are reported as unnecessary
      and rewritten to their operand. */
  lemma PrimitiveAssertionsReported()
    ensures var e := Literal(StrVal("hello"));
      var node := AsExpression(e, StringKeyword);
      CheckAs(map[], node, None) == Some(Report(node, UnnecessaryAssertion, ReplaceText(node, SourceText(e))))
    ensures var e := BinaryExpression("+", Literal(NumVal), Literal(NumVal));
      var node := TypeAssertion(e, NumberKeyword);
      CheckTypeAssertion(map[], node, None) == Some(Report(node, UnnecessaryAssertion, ReplaceText(node, SourceText(e))))
  {
  }

  /** An identifier declared `T[]` cast to `Array<U>` (or declared `Array<T>`
      and cast to `U[]`) outside a member access is reported exactly when
      `T` and `U` render to the same name. */
  lemma ArrayDeclarationsMatchEitherSpelling(reg: Registry, x: string, el: TypeNode, castEl: TypeNode,
                                              ps: set<string>, c: Option<string>, parent: Option<Parent>,
                                              genericDeclared: bool)
    requires WellFormedNames(el) && WellFormedNames(castEl)
    requires CastTypeName(el).Some? && CastTypeName(castEl).Some?
    requires !IsAccessedObject(parent)
    requires x in reg
    requires reg[x] == VariableEntry(Some(TypeAnnotation(
               if genericDeclared then TypeReference(Some("Array"), [el]) else ArrayType(el))), ps, c)
    ensures var cast := if genericDeclared then ArrayType(castEl) else TypeReference(Some("Array"), [castEl]);
      var r := CheckAs(reg, AsExpression(Identifier(x), cast), parent);
      r.Some? <==> CastTypeName(el) == CastTypeName(castEl)
  {
    var cast := if genericDeclared then ArrayType(castEl) else TypeReference(Some("Array"), [castEl]);
    var node := AsExpression(Identifier(x), cast);
    IdentifierNeverPrimitiveRedundant(reg, x, cast);
    if genericDeclared {
      ArrayAnnotationsEquivalent(el, castEl);
      EquivalenceIsEquivalence(CastTypeName(ArrayType(castEl)).value,
                               CastTypeName(TypeReference(Some("Array"), [el])).value, "");
    } else {
      ArrayAnnotationsEquivalent(castEl, el);
    }
  }

  // ----- `<T>e` -----

  /** The old-style assertion checks the member access first: as the object
      of a member access it is reported, whatever its target (even `any`),
      unless its operand is an identifier declared `unknown`. */
  lemma AccessedTypeAssertionReported(reg: Registry, node: Node, parent: Option<Parent>)
    requires node.TypeAssertion? && IsAccessedObject(parent)
    ensures CheckTypeAssertion(reg, node, parent).Some? <==> !IsTrackedUnknown(reg, node.expression)
    ensures CheckTypeAssertion(reg, node, parent).Some? ==>
      CheckTypeAssertion(reg, node, parent).value ==
        Report(node, AssertionWhenAccessingProperty, ReplaceText(node, SourceText(node.expression)))
  {
  }

  /** Outside a member access, `<T>e` is reported as unnecessary when the
      primitive test flags it, and otherwise exactly when the same-type test
      does, for every `T`. */
  lemma TypeAssertionOutsideMemberAccess(reg: Registry, e: Node, t: TypeNode, parent: Option<Parent>)
    requires !IsAccessedObject(parent)
    ensures var node := TypeAssertion(e, t);
      CheckTypeAssertion(reg, node, parent) ==
        if IsUnnecessaryTypeAssertion(reg, e, t) then Some(Report(node, UnnecessaryAssertion, ReplaceText(node, SourceText(e))))
        else SameTypeReport(reg, node, e, t)
  {
  }

  /** Outside a member access both forms decide alike for non-`any`
      targets and operands that are not member expressions. */
  lemma FormsAgreeOutsideMemberAccess(reg: Registry, e: Node, t: TypeNode, parent: Option<Parent>)
    requires !IsAccessedObject(parent) && t != AnyKeyword && !e.MemberExpression?
    ensures var a := CheckAs(reg, AsExpression(e, t), parent);
            var b := CheckTypeAssertion(reg, TypeAssertion(e, t), parent);
            a.Some? <==> b.Some?
    ensures var a := CheckAs(reg, AsExpression(e, t), parent);
            var b := CheckTypeAssertion(reg, TypeAssertion(e, t), parent);
            a.Some? ==> a.value.message == b.value.message && a.value.fix.text == b.value.fix.text
  {
  }

  // ----- `e!` -----

  /** An entry whose declaration leaves no room for `null`: a variable with
      an annotation that is neither a union with a `null` or `undefined`
      member nor optional, or any class, interface or alias entry. */
  predicate NotNullableShape(e: Entry) {
    match e
    case VariableEntry(Some(TypeAnnotation(UnionType(ts))), _, _) =>
      forall i :: 0 <= i < |ts| ==> !ts[i].NullKeyword? && !ts[i].UndefinedKeyword?
    case VariableEntry(Some(TypeAnnotation(OptionalType(_))), _, _) => false
    case VariableEntry(ann, _, _) => ann.Some?
    case _ => true
  }

  /** A non-null assertion on an identifier is reported exactly when the
      identifier is tracked and its entry is not declared nullable: for a
      variable, an annotation that is neither a union with `null` or
      `undefined` nor optional; a class, interface or alias entry always
      passes (its `type` is a string tag). */
  lemma NonNullOnIdentifier(reg: Registry, x: string)
    ensures var r := CheckNonNull(reg, NonNullExpression(Identifier(x)));
      r.Some? <==> x in reg && NotNullableShape(reg[x])
    ensures var r := CheckNonNull(reg, NonNullExpression(Identifier(x)));
      r.Some? ==> r.value == Report(NonNullExpression(Identifier(x)), NotNullable(x),
                                    ReplaceText(NonNullExpression(Identifier(x)), Verbatim(x)))
  {
  }

  /** `e!` is reported exactly when `e` is definitely non-null or is a
      tracked identifier whose entry is not declared nullable; for a
      non-identifier the fix is the operand's text. */
  lemma NonNullReportedIff(reg: Registry, e: Node)
    ensures CheckNonNull(reg, NonNullExpression(e)).Some? <==>
      IsDefinitelyNonNull(e) || (e.Identifier? && e.name in reg && NotNullableShape(reg[e.name]))
    ensures !e.Identifier? ==>
      CheckNonNull(reg, NonNullExpression(e)) ==
        if IsDefinitelyNonNull(e) then
          Some(Report(NonNullExpression(e), UnnecessaryNonNull, ReplaceText(NonNullExpression(e), SourceText(e))))
        else None
  {
    if e.Identifier? {
      NonNullOnIdentifier(reg, e.name);
    }
  }

  /** The runtime types a value of a declared annotation can have, under
      strict null checks, not following type references: a named type other
      than an alias (an interface, a class, a built-in object type) admits
      everything but `null` and `undefined`. */
  function Admitted(t: TypeNode): set<JsType> {
    match t
    case TypeAnnotation(inner) => Admitted(inner)
    case StringKeyword => {TString}
    case NumberKeyword => {TNumber}
    case BooleanKeyword => {TBoolean}
    case BigIntKeyword => {TBigInt}
    case NullKeyword => {TNull}
    case UndefinedKeyword => {TUndefined}
    case VoidKeyword => {TUndefined}
    case AnyKeyword => AllTypes
    case UnknownKeyword => AllTypes
    case ArrayType(_) => {TObject}
    case UnionType(ts) => set i, x | 0 <= i < |ts| && x in Admitted(ts[i]) :: x
    case OptionalType(o) => Admitted(o) + {TUndefined}
    case TypeLiteral(_) => AllTypes - Nullish
    case TypeReference(_, _) => AllTypes - Nullish
    case OtherType => AllTypes
  }

  /** `isNullableType` on each kind of annotation: only a wrapped union with
      a `null` or `undefined` member, or a wrapped optional type, counts. */
  lemma NullableTypeShapes(t: TypeNode)
    ensures !t.TypeAnnotation? ==> !IsNullableType(t)
    ensures t.TypeAnnotation? && t.inner.UnionType? ==>
      (IsNullableType(t) <==> exists i :: 0 <= i < |t.inner.types| && t.inner.types[i] in {NullKeyword, UndefinedKeyword})
    ensures t.TypeAnnotation? && t.inner.OptionalType? ==> IsNullableType(t)
    ensures t.TypeAnnotation? && !t.inner.UnionType? && !t.inner.OptionalType? ==> !IsNullableType(t)
  {
    if t.TypeAnnotation? && t.inner.UnionType? {
      var ts := t.inner.types;
      assert forall i :: 0 <= i < |ts| ==> (ts[i] in {NullKeyword, UndefinedKeyword} <==> ts[i].NullKeyword? || ts[i].UndefinedKeyword?);
    }
  }

  /** An annotation the rule counts as nullable admits `null` or
      `undefined`. */
  lemma NullableAdmitsNullish(t: TypeNode)
    requires IsNullableType(t)
    ensures Admitted(t) * Nullish != {}
  {
    if t.inner.UnionType? {
      var ts := t.inner.types;
      var i :| 0 <= i < |ts| && (ts[i].NullKeyword? || ts[i].UndefinedKeyword?);
      var x := if ts[i].NullKeyword? then TNull else TUndefined;
      assert x in Admitted(ts[i]);
      assert x in Admitted(t.inner);
      assert Admitted(t) == Admitted(t.inner);
      assert x in Nullish;
      assert x in Admitted(t) * Nullish;
    } else {
      assert Admitted(t) == Admitted(t.inner.optional) + {TUndefined};
      assert TUndefined in Admitted(t) * Nullish;
    }
  }

  /** The converse fails: `let x: null`, `let x: unknown` and a variable
      annotated with an alias of `string | null` all admit `null`, yet `x!`
      is reported as unnecessary for each. */
  lemma NullableTestMissesNullishTypes(ps: set<string>)
    ensures var reg := map["x" := VariableEntry(Some(TypeAnnotation(NullKeyword)), ps, None)];
      TNull in Admitted(reg["x"].annotation.value) && CheckNonNull(reg, NonNullExpression(Identifier("x"))).Some?
    ensures var reg := map["x" := VariableEntry(Some(TypeAnnotation(UnknownKeyword)), ps, None)];
      TNull in Admitted(reg["x"].annotation.value) && CheckNonNull(reg, NonNullExpression(Identifier("x"))).Some?
    ensures var maybe := UnionType([StringKeyword, NullKeyword]);
      var reg := map["Maybe" := AliasEntry(maybe),
                     "x" := VariableEntry(Some(TypeAnnotation(TypeReference(Some("Maybe"), []))), ps, None)];
      && ResolveAlias(reg, TypeReference(Some("Maybe"), [])) == maybe
      && TNull in Admitted(maybe)
      && CheckNonNull(reg, NonNullExpression(Identifier("x"))).Some?
  {
    var maybe := UnionType([StringKeyword, NullKeyword]);
    assert TNull in Admitted(maybe.types[1]);
  }

  /** A reported non-null assertion on a non-identifier operand is one whose
      operand cannot be `null` or `undefined`. */
  lemma NonNullReportSound(reg: Registry, env: Env, node: Node)
    requires node.NonNullExpression? && !node.expression.Identifier?
    requires node.expression.BinaryExpression? ==> KnownBinaryOperator(node.expression.operator)
    requires CheckNonNull(reg, node).Some?
    ensures TypesOf(env, node.expression) * Nullish == {}
    ensures TypesOf(env, node) == TypesOf(env, node.expression)
  {
    NonNullSound(env, node.expression);
  }

  // ----- traversals -----

  /** Entries are overwritten, never removed. */
  lemma {:induction false} RunKeepsNames(reg: Registry, events: seq<Event>)
    ensures reg.Keys <= Run(reg, events).0.Keys
    decreases |events|
  {
    if |events| > 0 {
      var (reg1, _) := Visit(reg, events[0].node, events[0].parent);
      RunKeepsNames(reg1, events[1..]);
    }
  }

  /** Every report of a traversal is about one of its assertion nodes and
      replaces exactly that node. */
  lemma {:induction false} RunReportsAssertions(reg: Registry, events: seq<Event>)
    ensures forall rep :: rep in Run(reg, events).1 ==>
      IsAssertion(rep.node) && rep.fix.ReplaceText? && rep.fix.node == rep.node &&
      exists i :: 0 <= i < |events| && events[i].node == rep.node
    decreases |events|
  {
    if |events| > 0 {
      var (reg1, reports1) := Visit(reg, events[0].node, events[0].parent);
      RunReportsAssertions(reg1, events[1..]);
      forall rep | rep in Run(reg, events).1
        ensures IsAssertion(rep.node) && rep.fix.ReplaceText? && rep.fix.node == rep.node
        ensures exists i :: 0 <= i < |events| && events[i].node == rep.node
      {
        if rep in reports1 {
          assert events[0].node == rep.node;
        } else {
          assert rep in Run(reg1, events[1..]).1;
          var j :| 0 <= j < |events[1..]| && events[1..][j].node == rep.node;
          assert events[j + 1].node == rep.node;
        }
      }
    }
  }

  /** The later of two declarations of one name is the one the registry
      keeps. */
  lemma LastWriteWins(reg: Registry, first: Node, second: Node, n: string)
    requires first.ClassDeclaration? || first.InterfaceDeclaration? || first.TypeAliasDeclaration? || first.VariableDeclarator?
    requires second.ClassDeclaration? && second.classId == Some(n)
    ensures var r := Run(reg, [Event(first, None), Event(second, None)]).0;
      n in r && r[n] == ClassEntry(n, NamesOf(second.body, {PropertyDefinition, MethodDefinition}))
  {
    var events := [Event(first, None), Event(second, None)];
    var (reg1, _) := Visit(reg, first, None);
    var (reg2, _) := Visit(reg1, second, None);
    assert events[1..] == [Event(second, None)];
    assert [Event(second, None)][1..] == [];
    assert Run(reg1, [Event(second, None)]).0 == reg2;
    assert Run(reg, events).0 == reg2;
  }
}

=== FILE: type_conversion.dfy ===
/** The `no-unnecessary-type-conversion` rule: a map from variable names to
    the primitive kind their initializer definitely has, four "definitely K"
    predicates, and six redundant-conversion patterns. */
module TypeConversion {
  import opened Ast

  datatype Kind = KString | KNumber | KBoolean | KBigInt

  /** `variableTypes`. */
  type Kinds = map<string, Kind>

  datatype Message =
    | StringConversion
    | NumberConversion
    | BooleanConversion
    | BigIntConversion
    | ToStringCall
    | UnaryPlus
    | DoubleBitwiseNot
    | DoubleLogicalNot
    | EmptyStringConcat
    | EmptyStringConcatAssign

  const ComparisonOperators: seq<string> := ["==", "===", "!=", "!==", "<", ">", "<=", ">="]

  predicate Tracked(kinds: Kinds, x: string, k: Kind) {
    x in kinds && kinds[x] == k
  }

  /** `isDefinitelyString`. */
  predicate IsDefinitelyString(kinds: Kinds, e: Node) {
    match e
    case Literal(StrVal(_)) => true
    case TemplateLiteral => true
    case Identifier(x) => Tracked(kinds, x, KString)
    case _ => false
  }

  /** `isDefinitelyNumber`: unary expressions are not accepted. */
  predicate IsDefinitelyNumber(kinds: Kinds, e: Node) {
    match e
    case Literal(NumVal) => true
    case Identifier(x) => Tracked(kinds, x, KNumber)
    case BinaryExpression(op, l, r) =>
      op in ArithmeticOperators && IsDefinitelyNumber(kinds, l) && IsDefinitelyNumber(kinds, r)
    case _ => false
  }

  /** `isDefinitelyBoolean`: any comparison, whatever its operands, and any
      `!`. */
  predicate IsDefinitelyBoolean(kinds: Kinds, e: Node) {
    match e
    case Literal(BoolVal(_)) => true
    case Identifier(x) => Tracked(kinds, x, KBoolean)
    case BinaryExpression(op, _, _) => op in ComparisonOperators
    case UnaryExpression(op, _) => op == "!"
    case _ => false
  }

  /** `isDefinitelyBigInt`: any call of `BigInt`, whatever its arguments. */
  predicate IsDefinitelyBigInt(kinds: Kinds, e: Node) {
    match e
    case Literal(BigIntVal) => true
    case CallExpression(Identifier("BigInt"), _) => true
    case Identifier(x) => Tracked(kinds, x, KBigInt)
    case _ => false
  }

  predicate IsDefinitely(kinds: Kinds, e: Node, k: Kind) {
    match k
    case KString => IsDefinitelyString(kinds, e)
    case KNumber => IsDefinitelyNumber(kinds, e)
    case KBoolean => IsDefinitelyBoolean(kinds, e)
    case KBigInt => IsDefinitelyBigInt(kinds, e)
  }

  /** No expression is definitely of two kinds. */
  lemma KindsExclusive(kinds: Kinds, e: Node, k1: Kind, k2: Kind)
    requires IsDefinitely(kinds, e, k1) && IsDefinitely(kinds, e, k2)
    ensures k1 == k2
  {
  }

  /** The declarator's priority chain: string, number, boolean, BigInt. */
  function FirstKind(kinds: Kinds, e: Node): Option<Kind> {
    if IsDefinitelyString(kinds, e) then Some(KString)
    else if IsDefinitelyNumber(kinds, e) then Some(KNumber)
    else if IsDefinitelyBoolean(kinds, e) then Some(KBoolean)
    else if IsDefinitelyBigInt(kinds, e) then Some(KBigInt)
    else None
  }

  /** `VariableDeclarator`: an identifier with an initializer that is
      definitely of kind K is recorded as K (overwriting); otherwise the map
      is unchanged. */
  function DeclareVariable(kinds: Kinds, node: Node): (r: Kinds)
    requires node.VariableDeclarator?
    ensures forall k :: node.id.BindingIdent? && node.init.Some? && IsDefinitely(kinds, node.init.value, k) ==>
      r == kinds[node.id.name := k]
    ensures (!node.id.BindingIdent? || node.init.None? || forall k :: !IsDefinitely(kinds, node.init.value, k)) ==>
      r == kinds
  {
    if node.id.BindingIdent? && node.init.Some? then
      var e := node.init.value;
      match FirstKind(kinds, e)
      case Some(k) =>
        assert IsDefinitely(kinds, e, k);
        assert forall k' :: IsDefinitely(kinds, e, k') ==> k' == k by {
          forall k' | IsDefinitely(kinds, e, k') ensures k' == k {
            KindsExclusive(kinds, e, k, k');
          }
        }
        kinds[node.id.name := k]
      case None => kinds
    else kinds
  }

  /** The kind the global conversion function of that name produces. */
  function ConversionKind(f: string): Option<Kind> {
    if f == "String" then Some(KString)
    else if f == "Number" then Some(KNumber)
    else if f == "Boolean" then Some(KBoolean)
    else if f == "BigInt" then Some(KBigInt)
    else None
  }

  function ConversionMessage(k: Kind): Message {
    match k
    case KString => StringConversion
    case KNumber => NumberConversion
    case KBoolean => BooleanConversion
    case KBigInt => BigIntConversion
  }

  /** `CallExpression`: `String/Number/Boolean/BigInt(a)` with exactly one
      argument that is already of that kind. */
  function CheckCall(kinds: Kinds, node: Node): (r: Option<Report<Message>>)
    requires node.CallExpression?
    ensures r.Some? ==> |node.arguments| == 1 && r.value == Report(node, r.value.message, ReplaceText(node, SourceText(node.arguments[0])))
  {
    if !node.callee.Identifier? then None
    else match ConversionKind(node.callee.name)
      case Some(k) =>
        if |node.arguments| == 1 && IsDefinitely(kinds, node.arguments[0], k) then
          Some(Report(node, ConversionMessage(k), ReplaceText(node, SourceText(node.arguments[0]))))
        else None
      case None => None
  }

  /** `MemberExpression`, as the source tests it: a `toString` property
      that is the callee of a call with no arguments, on a definitely-string
      object; the report and the fix are about the call. The source never
      reads `computed`, so `s[toString]()` passes too. */
  function CheckMemberAsWritten(kinds: Kinds, node: Node, parent: Option<Parent>): (r: Option<Report<Message>>)
    requires node.MemberExpression?
    ensures r.Some? ==>
      && node.property == Identifier("toString") && IsDefinitelyString(kinds, node.obj)
      && parent.Some? && parent.value.role == AsCallee
      && parent.value.node.CallExpression? && |parent.value.node.arguments| == 0
      && (ChildOf(node, parent.value) ==> parent.value.node == CallExpression(node, []))
      && r.value == Report(parent.value.node, ToStringCall, ReplaceText(parent.value.node, SourceText(node.obj)))
    ensures (node.property == Identifier("toString") && IsDefinitelyString(kinds, node.obj)
             && parent == Some(Parent(CallExpression(node, []), AsCallee))) ==> r.Some?
  {
    if node.property == Identifier("toString") && parent.Some? && parent.value.node.CallExpression?
       && parent.value.role == AsCallee && |parent.value.node.arguments| == 0
       && IsDefinitelyString(kinds, node.obj) then
      Some(Report(parent.value.node, ToStringCall, ReplaceText(parent.value.node, SourceText(node.obj))))
    else None
  }

  /** `MemberExpression`, corrected: only the dot access `s.toString()` is
      reported, since `s[toString]()` calls whatever the variable `toString`
      names. */
  function CheckMember(kinds: Kinds, node: Node, parent: Option<Parent>): (r: Option<Report<Message>>)
    requires node.MemberExpression?
    ensures r.Some? ==>
      && !node.computed && node.property == Identifier("toString") && IsDefinitelyString(kinds, node.obj)
      && parent.Some? && parent.value.role == AsCallee
      && parent.value.node.CallExpression? && |parent.value.node.arguments| == 0
      && (ChildOf(node, parent.value) ==> parent.value.node == CallExpression(node, []))
      && r.value == Report(parent.value.node, ToStringCall, ReplaceText(parent.value.node, SourceText(node.obj)))
    ensures (!node.computed && node.property == Identifier("toString") && IsDefinitelyString(kinds, node.obj)
             && parent == Some(Parent(CallExpression(node, []), AsCallee))) ==> r.Some?
  {
    if node.computed then None else CheckMemberAsWritten(kinds, node, parent)
  }

  /** `UnaryExpression`: `+n`, `~~n`, `!!b`. The three operators differ, so
      the order the source tries them in decides nothing. Every report
      replaces the whole expression with its innermost operand, which is of
      the pattern's kind. */
  function CheckUnary(kinds: Kinds, node: Node): (r: Option<Report<Message>>)
    requires node.UnaryExpression?
    ensures r.Some? ==> r.value.node == node && r.value.fix.ReplaceText? && r.value.fix.node == node
                        && r.value.fix.text.SourceText?
    ensures r.Some? ==>
      var s := r.value.fix.text.src;
      || (r.value.message == UnaryPlus && node == UnaryExpression("+", s) && IsDefinitelyNumber(kinds, s))
      || (r.value.message == DoubleBitwiseNot && node == UnaryExpression("~", UnaryExpression("~", s))
          && IsDefinitelyNumber(kinds, s))
      || (r.value.message == DoubleLogicalNot && node == UnaryExpression("!", UnaryExpression("!", s))
          && IsDefinitelyBoolean(kinds, s))
    ensures node.operator != "+" && node.operator != "~" && node.operator != "!" ==> r.None?
  {
    var a := node.argument;
    if node.operator == "+" && IsDefinitelyNumber(kinds, a) then
      Some(Report(node, UnaryPlus, ReplaceText(node, SourceText(a))))
    else if node.operator == "~" && a.UnaryExpression? && a.operator == "~" && IsDefinitelyNumber(kinds, a.argument) then
      Some(Report(node, DoubleBitwiseNot, ReplaceText(node, SourceText(a.argument))))
    else if node.operator == "!" && a.UnaryExpression? && a.operator == "!" && IsDefinitelyBoolean(kinds, a.argument) then
      Some(Report(node, DoubleLogicalNot, ReplaceText(node, SourceText(a.argument))))
    else None
  }

  const EmptyString: Node := Literal(StrVal(""))

  /** `BinaryExpression`: `"" + s`, then `s + ""`, for a definitely-string
      `s`; the fix keeps `s`. When both operands are `""` the two fixes
      coincide, so the branch order is not observable. */
  function CheckBinary(kinds: Kinds, node: Node): (r: Option<Report<Message>>)
    requires node.BinaryExpression?
    ensures r.Some? ==> node.operator == "+" && r.value.node == node && r.value.message == EmptyStringConcat
    ensures r.Some? ==>
      || (node.left == EmptyString && IsDefinitelyString(kinds, node.right)
          && r.value.fix == ReplaceText(node, SourceText(node.right)))
      || (node.right == EmptyString && IsDefinitelyString(kinds, node.left)
          && r.value.fix == ReplaceText(node, SourceText(node.left)))
    ensures node.operator == "+" && node.left == EmptyString && IsDefinitelyString(kinds, node.right) ==>
      r == Some(Report(node, EmptyStringConcat, ReplaceText(node, SourceText(node.right))))
    ensures node.operator == "+" && node.right == EmptyString && IsDefinitelyString(kinds, node.left) ==>
      r == Some(Report(node, EmptyStringConcat, ReplaceText(node, SourceText(node.left))))
  {
    if node.operator == "+" then
      if node.left == EmptyString && IsDefinitelyString(kinds, node.right) then
        Some(Report(node, EmptyStringConcat, ReplaceText(node, SourceText(node.right))))
      else if node.right == EmptyString && IsDefinitelyString(kinds, node.left) then
        Some(Report(node, EmptyStringConcat, ReplaceText(node, SourceText(node.left))))
      else None
    else None
  }

  /** `AssignmentExpression`: exactly `x += ""` on a name tracked as a
      string is reported; the fix removes the enclosing expression
      statement, or else leaves just `x`. */
  function CheckAssignment(kinds: Kinds, node: Node, parent: Option<Parent>): (r: Option<Report<Message>>)
    requires node.AssignmentExpression?
    ensures r.Some? <==> node.operator == "+=" && node.left.Identifier? && node.right == EmptyString
                         && Tracked(kinds, node.left.name, KString)
    ensures r.Some? ==> r.value.node == node && r.value.message == EmptyStringConcatAssign
    ensures r.Some? ==>
      if parent.Some? && parent.value.node.ExpressionStatement? then r.value.fix == Remove(parent.value.node)
      else r.value.fix == ReplaceText(node, SourceText(node.left))
  {
    if node.operator == "+=" && node.left.Identifier? && node.right == EmptyString && IsDefinitelyString(kinds, node.left) then
      var fix := if parent.Some? && parent.value.node.ExpressionStatement? then Remove(parent.value.node)
                 else ReplaceText(node, SourceText(node.left));
      Some(Report(node, EmptyStringConcatAssign, fix))
    else None
  }

  /** The rule's listeners as the source has them: the `toString` check
      ignores `computed`. */
  function Visit(kinds: Kinds, node: Node, parent: Option<Parent>): (r: (Kinds, seq<Report<Message>>))
    ensures |r.1| <= 1
    ensures !node.VariableDeclarator? ==> r.0 == kinds
    ensures node.VariableDeclarator? ==> r.1 == []
  {
    match node
    case VariableDeclarator(_, _) => (DeclareVariable(kinds, node), [])
    case CallExpression(_, _) => (kinds, ToSeq(CheckCall(kinds, node)))
    case MemberExpression(_, _, _) => (kinds, ToSeq(CheckMemberAsWritten(kinds, node, parent)))
    case UnaryExpression(_, _) => (kinds, ToSeq(CheckUnary(kinds, node)))
    case BinaryExpression(_, _, _) => (kinds, ToSeq(CheckBinary(kinds, node)))
    case AssignmentExpression(_, _, _) => (kinds, ToSeq(CheckAssignment(kinds, node, parent)))
    case _ => (kinds, [])
  }

  /** The listeners with the corrected `toString` check. The correction
      only withdraws reports, and only on bracket access `o[p]`; every other
      node is treated exactly as the source treats it. */
  function VisitCorrected(kinds: Kinds, node: Node, parent: Option<Parent>): (r: (Kinds, seq<Report<Message>>))
    ensures r.0 == Visit(kinds, node, parent).0
    ensures r.1 == [] || r.1 == Visit(kinds, node, parent).1
    ensures !(node.MemberExpression? && node.computed) ==> r == Visit(kinds, node, parent)
  {
    match node
    case MemberExpression(_, _, _) => (kinds, ToSeq(CheckMember(kinds, node, parent)))
    case _ => Visit(kinds, node, parent)
  }

  function Run(kinds: Kinds, events: seq<Event>): (Kinds, seq<Report<Message>>)
    decreases |events|
  {
    if |events| == 0 then (kinds, [])
    else
      var (k1, reports1) := Visit(kinds, events[0].node, events[0].parent);
      var (k2, reports2) := Run(k1, events[1..]);
      (k2, reports1 + reports2)
  }
}

=== FILE: type_conversion_props.dfy ===
/** Properties of the type-conversion rule: its "definitely K" verdicts are
    sound against the runtime-type semantics of `JsTypes`, every replacement
    it proposes cannot change the type of the replaced expression, and the
    kind map it keeps stays sound as declarations are visited. */
module TypeConversionProperties {
  import opened Ast
  import opened JsTypes
  import opened TypeConversion

  function KindType(k: Kind): JsType {
    match k
    case KString => TString
    case KNumber => TNumber
    case KBoolean => TBoolean
    case KBigInt => TBigInt
  }

  /** The kind map tells the truth about the environment: a variable recorded
      as K only holds values of type K. */
  predicate Agrees(env: Env, kinds: Kinds) {
    forall x :: x in kinds ==> x in env && env[x] <= {KindType(kinds[x])}
  }

  lemma {:induction false} NumberSound(kinds: Kinds, env: Env, e: Node)
    requires Agrees(env, kinds) && IsDefinitelyNumber(kinds, e)
    ensures TypesOf(env, e) <= {TNumber}
  {
    match e
    case Literal(_) =>
    case Identifier(x) =>
    case BinaryExpression(op, l, r) =>
      NumberSound(kinds, env, l);
      NumberSound(kinds, env, r);
  }

  /** Whatever the rule calls definitely K evaluates only to values of type
      K. */
  lemma {:induction false} DefinitelySound(kinds: Kinds, env: Env, e: Node, k: Kind)
    requires Agrees(env, kinds) && IsDefinitely(kinds, e, k)
    ensures TypesOf(env, e) <= {KindType(k)}
  {
    if k == KNumber {
      NumberSound(kinds, env, e);
    }
  }

  /** Declaring `x = init` keeps the map sound for the environment in which
      `x` now holds `init`'s value, provided `x` was not already tracked or
      `init` is itself definitely of some kind. */
  lemma {:induction false} DeclarationKeepsAgreement(kinds: Kinds, env: Env, x: string, ann: Option<TypeNode>, init: Node)
    requires Agrees(env, kinds)
    requires x !in kinds || exists k :: IsDefinitely(kinds, init, k)
    ensures Agrees(env[x := TypesOf(env, init)], DeclareVariable(kinds, VariableDeclarator(BindingIdent(x, ann), Some(init))))
  {
    var r := DeclareVariable(kinds, VariableDeclarator(BindingIdent(x, ann), Some(init)));
    if k :| IsDefinitely(kinds, init, k) {
      DefinitelySound(kinds, env, init, k);
      assert r == kinds[x := k];
    }
  }

  /** Redeclaring a tracked name with an initializer of no definite kind
      keeps the old kind, so the map can go stale: `let x = "a"` then
      `let x = f()` still has `String(x)` reported. */
  lemma RedeclarationKeepsStaleKind(ann: Option<TypeNode>)
    ensures var kinds := DeclareVariable(map["x" := KString], VariableDeclarator(BindingIdent("x", ann), Some(Identifier("f"))));
      && kinds == map["x" := KString]
      && !Agrees(map["x" := AllTypes], kinds)
      && CheckCall(kinds, CallExpression(Identifier("String"), [Identifier("x")])).Some?
  {
    var env: Env := map["x" := AllTypes];
    assert TNumber in env["x"];
  }

  /** A conversion call is reported exactly when it names a conversion
      function, has one argument, and that argument is definitely of the
      function's kind; the message names the kind. */
  lemma CallReportedIff(kinds: Kinds, f: string, args: seq<Node>)
    ensures var r := CheckCall(kinds, CallExpression(Identifier(f), args));
      r.Some? <==> (ConversionKind(f).Some? && |args| == 1 && IsDefinitely(kinds, args[0], ConversionKind(f).value))
    ensures var r := CheckCall(kinds, CallExpression(Identifier(f), args));
      r.Some? ==> r.value.message == ConversionMessage(ConversionKind(f).value)
  {
  }

  /** A literal of one kind passed to another kind's conversion function is
      never reported; passed to its own kind's function it always is. */
  lemma LiteralKindCoverage(kinds: Kinds, v: LitValue, k: Kind, f: string)
    requires ConversionKind(f) == Some(k)
    ensures var r := CheckCall(kinds, CallExpression(Identifier(f), [Literal(v)]));
      r.Some? <==> (v.StrVal? && k == KString) || (v.NumVal? && k == KNumber)
                   || (v.BoolVal? && k == KBoolean) || (v.BigIntVal? && k == KBigInt)
  {
  }

  /** Every fix the corrected rule proposes on a visited node replaces an
      expression with one of its own subexpressions whose possible runtime
      types are among the replaced expression's, or removes a statement.
      The rule as written fails this on `s[toString]()`
      (`ComputedToStringChangesType`). */
  lemma {:induction false} FixPreservesType(kinds: Kinds, env: Env, node: Node, parent: Option<Parent>)
    requires Agrees(env, kinds)
    requires parent.Some? ==> ChildOf(node, parent.value)
    ensures forall rep :: rep in VisitCorrected(kinds, node, parent).1 ==>
      || (rep.fix.ReplaceText? && rep.fix.text.SourceText? && TypesOf(env, rep.fix.text.src) <= TypesOf(env, rep.fix.node))
      || (rep.fix.Remove? && parent.Some? && rep.fix.node == parent.value.node && parent.value.node.ExpressionStatement?)
  {
    var reps := VisitCorrected(kinds, node, parent).1;
    if |reps| == 1 {
      var rep := reps[0];
      match node
      case CallExpression(callee, args) =>
        var k := ConversionKind(callee.name).value;
        DefinitelySound(kinds, env, args[0], k);
      case MemberExpression(o, _, _) =>
        DefinitelySound(kinds, env, o, KString);
        assert rep.fix.node == CallExpression(node, []);
      case UnaryExpression(op, a) =>
        if op == "+" {
          NumberSound(kinds, env, a);
        } else if op == "~" {
          NumberSound(kinds, env, a.argument);
        } else {
          DefinitelySound(kinds, env, a.argument, KBoolean);
        }
      case BinaryExpression(_, l, r) =>
        if l == EmptyString && IsDefinitelyString(kinds, r) {
          DefinitelySound(kinds, env, r, KString);
        } else {
          DefinitelySound(kinds, env, l, KString);
        }
      case AssignmentExpression(_, _, _) =>
    }
  }

  /** The shapes the kind predicates accept beyond literals and tracked
      names: no unary expression is definitely a number; every comparison
      and every `!` is definitely a boolean, whatever its operands; every
      `BigInt(...)` call is definitely a BigInt, whatever its arguments. */
  lemma KindPredicateShapes(kinds: Kinds, op: string, a: Node, b: Node, args: seq<Node>)
    ensures !IsDefinitelyNumber(kinds, UnaryExpression(op, a))
    ensures IsDefinitelyBoolean(kinds, BinaryExpression(op, a, b)) <==> op in ComparisonOperators
    ensures IsDefinitelyBoolean(kinds, UnaryExpression(op, a)) <==> op == "!"
    ensures IsDefinitelyBigInt(kinds, CallExpression(Identifier("BigInt"), args))
    ensures IsDefinitelyNumber(kinds, BinaryExpression(op, a, b)) <==>
      op in ArithmeticOperators && IsDefinitelyNumber(kinds, a) && IsDefinitelyNumber(kinds, b)
  {
  }

  /** A member expression is reported exactly when it is `o.toString` (dot
      access), the callee of a call with no arguments, and `o` is definitely
      a string: any other property, bracket access, a call with arguments,
      another parent or no parent is not. */
  lemma ToStringReportedIff(kinds: Kinds, o: Node, prop: Node, computed: bool, parent: Option<Parent>)
    requires parent.Some? ==> ChildOf(MemberExpression(o, prop, computed), parent.value)
    ensures var m := MemberExpression(o, prop, computed);
      CheckMember(kinds, m, parent).Some? <==>
        && prop == Identifier("toString") && !computed
        && parent == Some(Parent(CallExpression(m, []), AsCallee))
        && IsDefinitelyString(kinds, o)
  {
  }

  /** `+a` is reported exactly when `a` is definitely a number, `~~a` exactly
      when `a` is, and `!!a` exactly when `a` is definitely a boolean; a
      single `~` or `!` over anything but the same operator never is. */
  lemma UnaryReportedIff(kinds: Kinds, a: Node)
    ensures CheckUnary(kinds, UnaryExpression("+", a)).Some? <==> IsDefinitelyNumber(kinds, a)
    ensures CheckUnary(kinds, UnaryExpression("~", UnaryExpression("~", a))).Some? <==> IsDefinitelyNumber(kinds, a)
    ensures CheckUnary(kinds, UnaryExpression("!", UnaryExpression("!", a))).Some? <==> IsDefinitelyBoolean(kinds, a)
    ensures !(a.UnaryExpression? && a.operator == "~") ==> CheckUnary(kinds, UnaryExpression("~", a)).None?
    ensures !(a.UnaryExpression? && a.operator == "!") ==> CheckUnary(kinds, UnaryExpression("!", a)).None?
  {
  }

  /** Every variable the environment mentions holds some value. */
  predicate Inhabited(env: Env) {
    forall x :: x in env ==> env[x] != {}
  }

  /** With a truthful kind map over an inhabited environment, a
      definitely-K expression has exactly the type K. */
  lemma {:induction false} DefinitelyExact(kinds: Kinds, env: Env, e: Node, k: Kind)
    requires Agrees(env, kinds) && Inhabited(env) && IsDefinitely(kinds, e, k)
    ensures TypesOf(env, e) == {KindType(k)}
  {
    if k == KNumber && e.BinaryExpression? {
      DefinitelyExact(kinds, env, e.left, k);
      DefinitelyExact(kinds, env, e.right, k);
    } else if e.Identifier? {
      DefinitelySound(kinds, env, e, k);
    }
  }

  /** Over an inhabited environment, every replacement the corrected rule proposes has
      exactly the types of the expression it replaces: the rewrite cannot be
      told apart by `typeof`. */
  lemma {:induction false} FixKeepsTypesExactly(kinds: Kinds, env: Env, node: Node, parent: Option<Parent>)
    requires Agrees(env, kinds) && Inhabited(env)
    requires parent.Some? ==> ChildOf(node, parent.value)
    ensures forall rep :: rep in VisitCorrected(kinds, node, parent).1 && rep.fix.ReplaceText? ==>
      rep.fix.text.SourceText? && TypesOf(env, rep.fix.text.src) == TypesOf(env, rep.fix.node)
  {
    var reps := VisitCorrected(kinds, node, parent).1;
    if |reps| == 1 && reps[0].fix.ReplaceText? {
      var rep := reps[0];
      match node
      case CallExpression(callee, args) =>
        DefinitelyExact(kinds, env, args[0], ConversionKind(callee.name).value);
      case MemberExpression(o, _, _) =>
        DefinitelyExact(kinds, env, o, KString);
        assert rep.fix.node == CallExpression(node, []);
      case UnaryExpression(op, a) =>
        if op == "+" {
          DefinitelyExact(kinds, env, a, KNumber);
        } else if op == "~" {
          DefinitelyExact(kinds, env, a.argument, KNumber);
        } else {
          DefinitelyExact(kinds, env, a.argument, KBoolean);
        }
      case BinaryExpression(_, l, r) =>
        if l == EmptyString && IsDefinitelyString(kinds, r) {
          DefinitelyExact(kinds, env, r, KString);
        } else {
          DefinitelyExact(kinds, env, l, KString);
        }
      case AssignmentExpression(_, l, _) =>
        DefinitelyExact(kinds, env, l, KString);
    }
  }

  /** Running a reported `x += ""` leaves the environment as it was, so the
      fix that removes the statement changes no variable's types. */
  lemma AssignmentRemovalKeepsEnv(kinds: Kinds, env: Env, node: Node, parent: Option<Parent>)
    requires Agrees(env, kinds) && Inhabited(env)
    requires node.AssignmentExpression? && CheckAssignment(kinds, node, parent).Some?
    ensures Assign(env, node) == env
  {
    DefinitelyExact(kinds, env, node.left, KString);
  }

  /** As the source is written, `s[toString]()` on a string `s` is reported
      and rewritten to `s`, although the call may return anything: the
      rewrite can change the expression's type, so `Visit` fails the
      property `FixPreservesType` states of `VisitCorrected`. The corrected
      check does not report it. */
  lemma ComputedToStringChangesType()
    ensures var m := MemberExpression(Identifier("s"), Identifier("toString"), true);
      var call := CallExpression(m, []);
      var kinds := map["s" := KString];
      var env: Env := map["s" := {TString}];
      && CheckMemberAsWritten(kinds, m, Some(Parent(call, AsCallee)))
         == Some(Report(call, ToStringCall, ReplaceText(call, SourceText(Identifier("s")))))
      && Agrees(env, kinds) && Inhabited(env)
      && TypesOf(env, Identifier("s")) == {TString}
      && TypesOf(env, call) == AllTypes
      && CheckMember(kinds, m, Some(Parent(call, AsCallee))).None?
      && Visit(kinds, m, Some(Parent(call, AsCallee))).1
         == [Report(call, ToStringCall, ReplaceText(call, SourceText(Identifier("s"))))]
      && VisitCorrected(kinds, m, Some(Parent(call, AsCallee))).1 == []
  {
  }

  /** `"" + ""` takes the first branch: the fix keeps the right operand. */
  lemma EmptyConcatPrefersLeftPattern()
    ensures var n := BinaryExpression("+", EmptyString, EmptyString);
      CheckBinary(map[], n) == Some(Report(n, EmptyStringConcat, ReplaceText(n, SourceText(EmptyString))))
  {
  }

  /** The outer `+` of `+(+1)` is not reported, because a unary expression
      is never definitely a number; `!!!true` is reported at its outer `!`,
      and the fix keeps `!true`. */
  lemma UnaryPatternsAreExact(kinds: Kinds)
    ensures CheckUnary(kinds, UnaryExpression("+", UnaryExpression("+", Literal(NumVal)))).None?
    ensures var inner := UnaryExpression("!", Literal(BoolVal(true)));
      var n := UnaryExpression("!", UnaryExpression("!", inner));
      CheckUnary(kinds, n) == Some(Report(n, DoubleLogicalNot, ReplaceText(n, SourceText(inner))))
  {
  }

  /** Only declarators change the kind map, and each visit reports at most
      once. */
  lemma {:induction false} RunOnlyDeclaratorsTrack(kinds: Kinds, events: seq<Event>)
    requires forall i :: 0 <= i < |events| ==> !events[i].node.VariableDeclarator?
    ensures Run(kinds, events).0 == kinds
    ensures |Run(kinds, events).1| <= |events|
    decreases |events|
  {
    if |events| > 0 {
      RunOnlyDeclaratorsTrack(kinds, events[1..]);
    }
  }

  /** A tracked name is never forgotten over a traversal. */
  lemma {:induction false} RunKeepsKeys(kinds: Kinds, events: seq<Event>)
    ensures kinds.Keys <= Run(kinds, events).0.Keys
    decreases |events|
  {
    if |events| > 0 {
      var k1 := Visit(kinds, events[0].node, events[0].parent).0;
      RunKeepsKeys(k1, events[1..]);
    }
  }

  // ----- the value of `~~` -----

  /** ECMAScript's ToInt32 on a finite number: truncate toward zero, then
      wrap into the signed 32-bit range. */
  function ToInt32(v: real): (r: int)
    ensures -0x8000_0000 <= r < 0x8000_0000
  {
    var t := if v >= 0.0 then v.Floor else -((-v).Floor);
    var m := t % 0x1_0000_0000;
    if m >= 0x8000_0000 then m - 0x1_0000_0000 else m
  }

  /** `~v`, which is `-ToInt32(v) - 1`. */
  function BitwiseNot(v: real): int {
    -ToInt32(v) - 1
  }

  /** The `~~` rewrite keeps the type but not always the value: `~~v` is
      `v` exactly when `v` is an integer in the signed 32-bit range, so
      `~~1.5` is `1`. */
  lemma DoubleBitwiseNotExact(v: real)
    ensures (BitwiseNot(BitwiseNot(v) as real) as real == v) <==>
      (v == v.Floor as real && -0x8000_0000 <= v.Floor < 0x8000_0000)
  {
    var t := ToInt32(v);
    var inner := (-t - 1) as real;
    assert inner.Floor == -t - 1;
    assert (-inner).Floor == t + 1;
    assert ToInt32(inner) == -t - 1;
    if v == v.Floor as real && -0x8000_0000 <= v.Floor < 0x8000_0000 {
      if v < 0.0 {
        assert (-v).Floor == -v.Floor;
      }
    }
  }

  lemma DoubleBitwiseNotTruncates()
    ensures BitwiseNot(BitwiseNot(1.5) as real) == 1
  {
    DoubleBitwiseNotExact(1.5);
    assert (1.5).Floor == 1;
    assert (-1.5).Floor == -2;
  }
}

=== FILE: type_names.dfy ===
/** The type-assertion rule's string rendering of type annotations and its
    name-level type equivalence (`getCastTypeName`, `typesAreEquivalent`). */
module TypeNames {
  import opened Ast

  /** A character JavaScript's regular-expression `.` does not match. */
  predicate IsLineTerminator(c: char) {
    c == '\n' || c == '\r' || c == '\U{2028}' || c == '\U{2029}'
  }

  predicate NoLineTerminator(s: string) {
    forall i :: 0 <= i < |s| ==> !IsLineTerminator(s[i])
  }

  /** A string the capture `(.+)` can match: non-empty, no line terminator. */
  predicate Plain(s: string) {
    s != "" && NoLineTerminator(s)
  }

  /** Every identifier name in the annotation is `Plain`, as the names a
      parser produces are. */
  predicate WellFormedNames(t: TypeNode) {
    match t
    case TypeAnnotation(inner) => WellFormedNames(inner)
    case TypeReference(n, args) =>
      (n.Some? ==> Plain(n.value)) && forall i :: 0 <= i < |args| ==> WellFormedNames(args[i])
    case ArrayType(e) => WellFormedNames(e)
    case UnionType(ts) => forall i :: 0 <= i < |ts| ==> WellFormedNames(ts[i])
    case OptionalType(o) => WellFormedNames(o)
    case _ => true
  }

  /** `getCastTypeName`: `Array<T>` (a reference named `Array` with exactly
      one type argument) renders as `Array<name(T)>`, `T[]` as `name(T)[]`,
      any other identifier reference as its name, the eight recognised
      keywords as their keyword; every other annotation, and an array form
      whose element renders to nothing, gives `None`. */
  function CastTypeName(t: TypeNode): (r: Option<string>)
    ensures WellFormedNames(t) && r.Some? ==> Plain(r.value)
  {
    match t
    case TypeReference(Some(n), args) =>
      if n == "Array" && |args| == 1 then
        var e := CastTypeName(args[0]);
        if Truthy(e) then Some("Array<" + e.value + ">") else None
      else Some(n)
    case StringKeyword => Some("string")
    case NumberKeyword => Some("number")
    case BooleanKeyword => Some("boolean")
    case AnyKeyword => Some("any")
    case UnknownKeyword => Some("unknown")
    case VoidKeyword => Some("void")
    case NullKeyword => Some("null")
    case UndefinedKeyword => Some("undefined")
    case ArrayType(el) =>
      var e := CastTypeName(el);
      if Truthy(e) then Some(e.value + "[]") else None
    case _ => None
  }

  /** The capture of `/^Array<(.+)>$/`, if the string matches. */
  function GenericCapture(s: string): (r: Option<string>)
    ensures r.Some? ==> Plain(r.value) && s == "Array<" + r.value + ">"
  {
    if |s| >= 8 && s[..6] == "Array<" && s[|s| - 1] == '>' && NoLineTerminator(s[6..|s| - 1]) then
      assert s == s[..6] + s[6..|s| - 1] + [s[|s| - 1]];
      Some(s[6..|s| - 1])
    else None
  }

  /** The capture of `/^(.+)\[\]$/`, if the string matches. */
  function BracketCapture(s: string): (r: Option<string>)
    ensures r.Some? ==> Plain(r.value) && s == r.value + "[]"
  {
    if |s| >= 3 && s[|s| - 2..] == "[]" && NoLineTerminator(s[..|s| - 2]) then
      assert s == s[..|s| - 2] + s[|s| - 2..];
      Some(s[..|s| - 2])
    else None
  }

  /** `typesAreEquivalent`: equal names, or `Array<X>` against `X[]` in either
      order. */
  predicate TypesAreEquivalent(a: string, b: string) {
    if a == b then true
    else if GenericCapture(a).Some? && BracketCapture(b).Some? then
      GenericCapture(a).value == BracketCapture(b).value
    else if GenericCapture(b).Some? && BracketCapture(a).Some? then
      GenericCapture(b).value == BracketCapture(a).value
    else false
  }

  /** The captures recover the element name from both array spellings. */
  lemma CaptureRoundTrip(x: string)
    requires Plain(x)
    ensures GenericCapture("Array<" + x + ">") == Some(x)
    ensures BracketCapture(x + "[]") == Some(x)
    ensures GenericCapture(x + "[]") == None
    ensures BracketCapture("Array<" + x + ">") == None
  {
    var g := "Array<" + x + ">";
    assert g[..6] == "Array<";
    assert g[6..|g| - 1] == x;
    var b := x + "[]";
    assert b[|b| - 2..] == "[]";
    assert b[..|b| - 2] == x;
  }

  /** `typesAreEquivalent` is an equivalence relation on names. */
  lemma EquivalenceIsEquivalence(a: string, b: string, c: string)
    ensures TypesAreEquivalent(a, a)
    ensures TypesAreEquivalent(a, b) <==> TypesAreEquivalent(b, a)
    ensures TypesAreEquivalent(a, b) && TypesAreEquivalent(b, c) ==> TypesAreEquivalent(a, c)
  {
  }

  /** `Array<x>` and `y[]` are equivalent, in either order, exactly when the
      element names agree. */
  lemma ArraySpellingsEquivalent(x: string, y: string)
    requires Plain(x) && Plain(y)
    ensures TypesAreEquivalent("Array<" + x + ">", y + "[]") <==> x == y
    ensures TypesAreEquivalent(y + "[]", "Array<" + x + ">") <==> x == y
  {
    CaptureRoundTrip(x);
    CaptureRoundTrip(y);
    var g := "Array<" + x + ">";
    var b := y + "[]";
    assert g != b by {
      assert g[|g| - 1] == '>';
      assert b[|b| - 1] == ']';
    }
  }

  /** At the annotation level: with well-formed names, `Array<X>` and `Y[]`
      render to equivalent names iff `X` and `Y` render to the same name;
      and an array whose element renders to nothing renders to nothing. */
  lemma ArrayAnnotationsEquivalent(x: TypeNode, y: TypeNode)
    requires WellFormedNames(x) && WellFormedNames(y)
    requires CastTypeName(x).Some? && CastTypeName(y).Some?
    ensures CastTypeName(TypeReference(Some("Array"), [x])) == Some("Array<" + CastTypeName(x).value + ">")
    ensures CastTypeName(ArrayType(y)) == Some(CastTypeName(y).value + "[]")
    ensures TypesAreEquivalent(CastTypeName(TypeReference(Some("Array"), [x])).value,
                               CastTypeName(ArrayType(y)).value)
        <==> CastTypeName(x) == CastTypeName(y)
  {
    ArraySpellingsEquivalent(CastTypeName(x).value, CastTypeName(y).value);
  }

  /** `null` from an element type propagates through both array spellings. */
  lemma UnrenderableElementPropagates(el: TypeNode)
    requires !Truthy(CastTypeName(el))
    ensures CastTypeName(TypeReference(Some("Array"), [el])) == None
    ensures CastTypeName(ArrayType(el)) == None
  {
  }

  /** Unions, optional types, type literals, qualified references, the
      `bigint` keyword and the annotation wrapper itself render to nothing. */
  lemma UnrecognisedKindsRenderNothing(t: TypeNode)
    requires t.UnionType? || t.OptionalType? || t.TypeLiteral? || t.OtherType? || t.BigIntKeyword?
          || t.TypeAnnotation? || (t.TypeReference? && t.typeName.None?)
    ensures CastTypeName(t) == None
  {
  }

  /** `Array<number>` is not equivalent to `string[]`. */
  lemma DifferentElementsNotEquivalent()
    ensures !TypesAreEquivalent(CastTypeName(TypeReference(Some("Array"), [NumberKeyword])).value,
                                CastTypeName(ArrayType(StringKeyword)).value)
  {
    ArraySpellingsEquivalent("number", "string");
  }
}
